=== FILE: README.md ===
# Indexed colour picker: grid engine and selection core

This project models the two collaborating classes of the indexed colour picker
widget of the `com.bric.swing` package.

- **The palette panel** (`IndexedColorPickerPanel`) is modelled by `Geometry`
  and by the class `Widget.Panel`. It lays out the 2 to 256 palette colours in
  a near-square grid. It sizes its cells to fit the component and maps a
  pointer press or an arrow key onto a colour index. It keeps a list of change
  listeners, which it notifies in order, and it refills a fixed-size raster
  on every resize.
- **The picker** (`IndexedColorPicker`) is modelled by `Palette` and by the
  class `Widget.Picker`. It checks the size of the colour model and copies its
  colours. It owns the authoritative selection and finds a colour by its
  24-bit value. It pushes each new selection into the panel, a numeric
  spinner and a preview swatch. Two adjusting counters make its change
  handler ignore the echoes of its own updates.

The files are:

- `palette.dfy` (module `Palette`): colour arithmetic. This covers the low 24
  bits of an ARGB int, packing and unpacking components, the component
  checks of `setRGB`, and the copy loop of the constructor.
- `geometry.dfy` (module `Geometry`): the integer geometry. This covers
  Java's truncating division, the grid search and its specification as a
  first minimiser, `sizeToFit`, the pointer and arrow-key mappings, the
  selection marker, and the pixel-to-cell mapping of the raster.
- `widget.dfy` (module `Widget`): the classes `Panel` and `Picker`. Their
  event methods call each other: panel `setColorIndex` fires the listeners,
  the picker's handler runs, picker `setColorIndex` runs, and the spinner
  update follows. The picker's two adjusting counters give these calls a
  terminating `decreases` measure.

Listener fan-out is fixed wiring. A panel listener is either the picker's own
handler or outside code, identified by a number. Outside code may throw a
`RuntimeException`; the panel catches it, prints a stack trace and carries on
with the next listener. Outside code leaves a log of `Notice`s. The spinner's
only listener is the picker's handler.

The picker's observable state is gathered into a `PickerView` value. The
function `Selected` states what an accepted `setColorIndex` does to it:

- the index and the spinner value become the new index, and the preview
  shows its colour;
- one property-change event is logged when the colour changed;
- the selection count goes up by one.

In these places the code behaves differently from what a reader might
expect, and the model follows the code:

- **Pointer mapping.** The pointer offset is divided with Java's truncating
  `/`, not with floor division. A point less than one cell left of or above
  the grid therefore still hits column or row 0 (`Geometry.PointerHitArea`,
  `Geometry.PointerLeftOfGrid`).
- **Cell size.** The cell size is not clamped to 1. A press divides by zero
  whenever the cell size is 0: before the first resize, or after a resize
  that leaves less than one pixel per cell. The model ends such a press with
  status `Arithmetic`. A still smaller component gives a negative cell size,
  and the truncating division then maps presses onto cells without error: a
  press at (2, 2) of a 5 x 5 panel with 16 colours selects index 10
  (`Geometry.NegativeCellSizeHit`).
- **Widening search.** The search stops before `n` columns (`nc < n`), so
  `n` itself is never a candidate width.
- **Spinner upper bound.** The spinner model is `SpinnerNumberModel(0, 0, n,
  1)`, whose upper bound is `n`, not `n - 1`. The value `n` reaches
  `setColorIndex`, which refuses it, and the spinner is left showing `n`
  (`Widget.Picker.SpinnerEdited`).
- **Property-change events.** `setColorIndex` fires a property change with
  the old and new `Color`, not with the indices. Swing drops the event when
  the two colours are equal, so a move between two equal palette entries
  fires nothing (`Widget.PropertyChange`).

## Model

| member | source | states |
|---|---|---|
| Palette.Low24 | src/com/bric/swing/IndexedColorPicker.java:338 | the colour of `new Color(argb)` is a 24-bit value congruent to the ARGB int modulo 2^24 (alpha dropped, two's complement agrees) |
| Palette.UnpackPack | src/com/bric/swing/IndexedColorPicker.java:413-414 | packing three components in [0, 255] gives a 24-bit colour whose red, green and blue read back as those components |
| Palette.PackUnpack | src/com/bric/swing/IndexedColorPicker.java:397-400 | every 24-bit colour has components in [0, 255] and is the packing of them |
| Palette.FirstBadComponent | src/com/bric/swing/IndexedColorPicker.java:427-433 | red is reported when out of range, green only when red is in range, blue only when both are; none exactly when all three are in [0, 255] |
| Palette.CopyColors | src/com/bric/swing/IndexedColorPicker.java:334-338 | one colour per model entry, entry i being the low 24 bits of model entry i |
| Geometry.JavaDiv | src/com/bric/swing/IndexedColorPickerPanel.java:75-76 | Java's int `/`: the quotient's magnitude is the floor of the magnitudes' quotient, and a non-zero quotient is positive exactly when the operands have the same sign |
| Geometry.JavaDivTruncates | src/com/bric/swing/IndexedColorPickerPanel.java:75-76 | Java's quotient leaves a remainder smaller than the divisor in magnitude, zero or of the dividend's sign |
| Geometry.JavaDivPositive | src/com/bric/swing/IndexedColorPickerPanel.java:75-76 | for a positive divisor the quotient equals floor division on non-negative dividends and is 0 for dividends in (-divisor, 0) |
| Geometry.CeilDivBounds | src/com/bric/swing/IndexedColorPickerPanel.java:126-127 | `(n + (c - 1)) / c` rows hold all n colours with fewer than c blanks |
| Geometry.RoundSqrt | src/com/bric/swing/IndexedColorPickerPanel.java:125 | the start width c is at least 1 and satisfies c(c-1) < n <= c(c+1), the integer form of rounding the square root |
| Geometry.RoundSqrtUnique | src/com/bric/swing/IndexedColorPickerPanel.java:125 | exactly one width satisfies those bounds, so the start width is determined by n |
| Geometry.ComputeGrid | src/com/bric/swing/IndexedColorPickerPanel.java:122-139 | the chosen width has the fewest blanks among the square start and the widths the search reaches before it stops, every narrower candidate has strictly more blanks, and rows is the ceiling of n / cols |
| Geometry.FirstMinimiserUnique | src/com/bric/swing/IndexedColorPickerPanel.java:129-139 | only one width meets that specification, so the grid is a function of n |
| Geometry.CeilDivAntitone | src/com/bric/swing/IndexedColorPickerPanel.java:130 | a wider candidate never needs more rows |
| Geometry.SquareStartFits | src/com/bric/swing/IndexedColorPickerPanel.java:125-127 | for 2 to 256 colours the square start is at most 16 wide and at least as high as wide, and at most 16 high |
| Geometry.GridFits | src/com/bric/swing/IndexedColorPickerPanel.java:125-139 | for 2 to 256 colours the chosen grid is at most 16 x 16, holds every colour with fewer blanks than one row, and is at most twice as wide as high |
| Geometry.GridShape | src/com/bric/swing/IndexedColorPickerPanel.java:125-139 | the chosen grid fills all but its last row completely: rows * cols >= n > (rows - 1) * cols |
| Geometry.GridOfTwo | src/com/bric/swing/IndexedColorPickerPanel.java:122-139 | 2 colours give 1 column and 2 rows |
| Geometry.GridOfSix | src/com/bric/swing/IndexedColorPickerPanel.java:134-135 | 6 colours give 2 x 3: the tie with 3 x 2 keeps the narrower grid |
| Geometry.GridOfSeven | src/com/bric/swing/IndexedColorPickerPanel.java:122-139 | 7 colours give 4 columns, 2 rows and one blank |
| Geometry.GridOfSixteen | src/com/bric/swing/IndexedColorPickerPanel.java:122-139 | 16 colours give the perfect square 4 x 4 |
| Geometry.GridOf128 | src/com/bric/swing/IndexedColorPickerPanel.java:129-139 | 128 colours give 16 columns and 8 rows |
| Geometry.GridOf256 | src/com/bric/swing/IndexedColorPickerPanel.java:122-139 | 256 colours give 16 x 16 |
| Geometry.FitCellSize | src/com/bric/swing/IndexedColorPickerPanel.java:60-64 | the cell size is at most 30 and at most each axis's padded extent divided by its cell count, and equals one of the three |
| Geometry.FitCellSizeBounds | src/com/bric/swing/IndexedColorPickerPanel.java:59-67 | the cell size is at most 30; when it is positive, or the component is at least 12 pixels each way, the grid fits the padded component, and in the latter case no larger size up to 30 would fit |
| Geometry.AxisFit | src/com/bric/swing/IndexedColorPickerPanel.java:62-64 | along one axis a size up to the quotient fits the extent and one more than the quotient does not |
| Geometry.PointerHit | src/com/bric/swing/IndexedColorPickerPanel.java:74-78 | a press divides by zero exactly when the cell size is 0 |
| Geometry.PointerHitInGrid | src/com/bric/swing/IndexedColorPickerPanel.java:77-79 | a hit names an index below rows * cols |
| Geometry.CellAtBand | src/com/bric/swing/IndexedColorPickerPanel.java:240-242 | every raster row of grid row r maps pixel x to cell r * cols + x / cellSize |
| Geometry.CellAtRange | src/com/bric/swing/IndexedColorPickerPanel.java:238-240 | a pixel inside the grid lies in a column below cols, a row below rows and a cell below rows * cols |
| Geometry.PointerHitsPaintedCell | src/com/bric/swing/IndexedColorPickerPanel.java:74-79 | a press inside the drawn grid selects the very cell the raster paints at that pixel |
| Geometry.PointerHitArea | src/com/bric/swing/IndexedColorPickerPanel.java:75-78 | a press that hits a cell lies less than one cell before the grid and inside its far edges |
| Geometry.PointerLeftOfGrid | src/com/bric/swing/IndexedColorPickerPanel.java:75-77 | a press one pixel left of the grid still selects a column-0 cell |
| Geometry.NegativeCellSizeHit | src/com/bric/swing/IndexedColorPickerPanel.java:60-77 | 16 colours in a 5 x 5 component give the 4 x 4 grid with cell size -1, and a press at (2, 2) then selects index 10 without dividing by zero |
| Geometry.KeyTarget | src/com/bric/swing/IndexedColorPickerPanel.java:88-99 | a key is accepted exactly when it is an arrow key whose target lies in [0, n), with no wrap-around or clamping; an accepted target is the index moved by the key's step (-1, +1, -cols or +cols) and differs from the current index |
| Geometry.KeyTargetMoves | src/com/bric/swing/IndexedColorPickerPanel.java:89-98 | Up and Down keep the column and move one row; Left and Right step to the neighbouring index, so Left from column 0 lands on the last column of the row above |
| Geometry.KeyTargetInverse | src/com/bric/swing/IndexedColorPickerPanel.java:90-93 | Left undoes Right, Right undoes Left, Up undoes Down and Down undoes Up whenever the first move is accepted |
| Geometry.MarkerCentre | src/com/bric/swing/IndexedColorPickerPanel.java:188-191 | for a positive cell size the marker centre lies inside the pixel span of the selected cell's column and row |
| Geometry.HalfCellInside | src/com/bric/swing/IndexedColorPickerPanel.java:190-191 | the marker coordinate of cell k lies inside that cell's pixel span |
| Geometry.MarkerRoundTrip | src/com/bric/swing/IndexedColorPickerPanel.java:188-191 | the marker is drawn inside the selected cell, and a press at its centre selects that same index |
| Widget.RemoveFirst | src/com/bric/swing/IndexedColorPickerPanel.java:168-170 | removal shortens the list by one exactly when the listener is registered |
| Widget.RemoveFirstSpec | src/com/bric/swing/IndexedColorPickerPanel.java:160-170 | on a duplicate-free list removal takes out exactly that listener and keeps the list duplicate-free |
| Widget.NoticesAppend | src/com/bric/swing/IndexedColorPickerPanel.java:172-180 | notifying a concatenation of lists notifies the first list and then the second |
| Widget.NoticesInOrder | src/com/bric/swing/IndexedColorPickerPanel.java:172-180 | listener k is called after all earlier ones and before all later ones, whether or not any of them throws |
| Widget.PropertyChange | src/com/bric/swing/IndexedColorPicker.java:454-455 | a selection fires at most one event; it fires exactly when the index moves between entries of different colours, and carries the old and the new colour |
| Widget.SelectTwiceFiresOnce | src/com/bric/swing/IndexedColorPicker.java:439-456 | selecting the same index twice fires no more events than selecting it once |
| Widget.Panel.constructor | src/com/bric/swing/IndexedColorPickerPanel.java:114-144 | the grid is the search's first minimiser, the raster is all transparent, index 0 is selected and no listener is registered |
| Widget.Panel.AddChangeListener | src/com/bric/swing/IndexedColorPickerPanel.java:160-163 | the listener is appended unless already registered, so the list stays duplicate-free |
| Widget.Panel.RemoveChangeListener | src/com/bric/swing/IndexedColorPickerPanel.java:168-170 | the listener is gone and every other listener keeps its registration |
| Widget.Panel.SetColorIndex | src/com/bric/swing/IndexedColorPickerPanel.java:219-227 | the current index is a no-op, an index outside [0, n) throws and changes nothing, and any other index is stored, every listener is notified in order and the picker's handler selects it unless the picker is adjusting the panel |
| Widget.Panel.FireChangeListeners | src/com/bric/swing/IndexedColorPickerPanel.java:172-180 | every listener is called once in list order, the outside ones leave their notices, and the picker's handler selects the panel's index unless it is adjusting |
| Widget.Panel.Notify | src/com/bric/swing/IndexedColorPickerPanel.java:173-178 | one listener call: outside code is notified and a throw is caught and printed; the picker's handler reacts unless adjusting |
| Widget.Panel.MousePressed | src/com/bric/swing/IndexedColorPickerPanel.java:70-84 | a press divides by zero exactly when the cell size is 0, a press outside the grid or on the current index changes nothing, and a press on a blank cell is refused with IllegalArgument and changes nothing. A press on another colour stores it in the panel, notifies every listener in order, and leaves the picker as `Selected` makes it (index, spinner, preview, property-change event) unless the picker is adjusting the panel. A synchronised picker at rest stays synchronised |
| Widget.Panel.KeyPressed | src/com/bric/swing/IndexedColorPickerPanel.java:88-99 | a key that is not an arrow, or whose target is outside [0, n), changes nothing. An accepted arrow key stores its target in the panel, notifies every listener in order, and leaves the picker as `Selected` makes it unless the picker is adjusting the panel. A synchronised picker at rest stays synchronised |
| Widget.Panel.SizeToFit | src/com/bric/swing/IndexedColorPickerPanel.java:59-67 | the cell size is the fitted size of the component and the drawn extent is cellSize times the grid's columns and rows |
| Widget.Panel.CopyRowToImage | src/com/bric/swing/IndexedColorPickerPanel.java:242 | the first `width` pixels of raster row y become the row buffer and nothing else changes |
| Widget.Panel.PaintBand | src/com/bric/swing/IndexedColorPickerPanel.java:241-243 | the `cellSize` raster rows of a band receive the row buffer and nothing else changes |
| Widget.Panel.FillRowAsWritten | src/com/bric/swing/IndexedColorPickerPanel.java:239-240 | the as-written fill of grid row r completes exactly when the whole row lies inside the palette, and then holds the row's cell colours |
| Widget.Panel.FillRow | src/com/bric/swing/IndexedColorPickerPanel.java:239-240 | the corrected fill holds each pixel's cell colour, transparent past the palette |
| Widget.Panel.PaintRowAsWritten | src/com/bric/swing/IndexedColorPickerPanel.java:238-244 | one as-written row pass paints the row's band with its cell colours, or throws and paints nothing when the row runs past the palette |
| Widget.Panel.PaintRow | src/com/bric/swing/IndexedColorPickerPanel.java:238-244 | one corrected row pass paints the row's band with its cell colours |
| Widget.Panel.PaintRowsAsWritten | src/com/bric/swing/IndexedColorPickerPanel.java:238-244 | the as-written loop throws IndexOutOfBounds exactly when the cell size is positive and the grid has blanks, after painting every row above the last |
| Widget.Panel.RegenerateImageAsWritten | src/com/bric/swing/IndexedColorPickerPanel.java:235-246 | `regenerateImage` as written throws exactly when the cell size is positive and the grid has blanks; the rows it paints show palette colours only |
| Widget.Panel.PaintRows | src/com/bric/swing/IndexedColorPickerPanel.java:238-244 | the corrected loop paints every pixel of the drawn grid with its cell colour and leaves the rest of the raster as it was |
| Widget.Panel.RegenerateImage | src/com/bric/swing/IndexedColorPickerPanel.java:235-246 | the corrected regeneration sizes the grid and then shows every grid pixel's cell colour, transparent for blanks |
| Widget.Panel.ResizeAsWritten | src/com/bric/swing/IndexedColorPickerPanel.java:107-111 | `componentResized` as written stores the component size and fits the cell size; it throws IndexOutOfBounds exactly when the cell size is positive and the grid has blanks, after painting every grid row but the last |
| Widget.Panel.Resize | src/com/bric/swing/IndexedColorPickerPanel.java:107-111 | the corrected resize stores the component size, fits the cell size to it and paints the whole grid, blanks transparent |
| Widget.GridPixelInBand | src/com/bric/swing/IndexedColorPickerPanel.java:241-243 | every raster row of a grid row shows the same pixels, so copying one row buffer into the band is correct |
| Widget.PaintedCellsInPalette | src/com/bric/swing/IndexedColorPickerPanel.java:238-240 | every pixel of the fully filled rows lies in a cell inside the palette |
| Widget.SevenColoursOverrun | src/com/bric/swing/IndexedColorPickerPanel.java:238-240 | seven colours in a 100 x 100 component give a 4 x 2 grid with cell size 22, whose last pixel of the second row lies in cell 7, one past the palette |
| Widget.Picker.constructor | src/com/bric/swing/IndexedColorPicker.java:325-375 | after the size check the colours are copied, the panel is built with the search's first-minimiser grid, cell size 0 and an all-transparent raster and wired back, the picker's handler is its only listener, index 0 is selected everywhere with no preview and no event, and no update is in progress |
| Widget.Picker.Create | src/com/bric/swing/IndexedColorPicker.java:330-332 | a colour model with fewer than 2 or more than 256 entries is refused, and any other yields a synchronised picker at index 0 with the copied colours, no preview, no event, the picker's handler as the panel's only listener, the first-minimiser grid, cell size 0 and an all-transparent raster |
| Widget.Picker.GetColorIndex | src/com/bric/swing/IndexedColorPicker.java:402-404 | the selected index is always inside the palette |
| Widget.Picker.GetColor | src/com/bric/swing/IndexedColorPicker.java:460-462 | the selected colour is the low 24 bits of the selected model entry |
| Widget.Picker.GetRGB | src/com/bric/swing/IndexedColorPicker.java:397-400 | three components in [0, 255] that pack to the selected colour |
| Widget.Picker.FindColor | src/com/bric/swing/IndexedColorPicker.java:413-419 | the first entry whose low 24 bits are the packed colour, or 0 when no entry has them |
| Widget.Picker.SetRGB | src/com/bric/swing/IndexedColorPicker.java:427-437 | a bad component throws and changes nothing. Otherwise the first entry whose low 24 bits are the colour is selected, or entry 0 when there is none, and a colour in the palette reads back from `getColor` and `getRGB` |
| Widget.Picker.SetColorIndex | src/com/bric/swing/IndexedColorPicker.java:439-456 | an index outside [0, n) throws and changes nothing; any other is selected in picker, panel, spinner and preview, the panel's listeners are notified when the panel index moved, and a property change fires when the colour changed |
| Widget.Picker.FirePropertyChange | src/com/bric/swing/IndexedColorPicker.java:454-455 | an event is logged exactly when old and new colour differ |
| Widget.Picker.UpdateValueSpinner | src/com/bric/swing/IndexedColorPicker.java:469-476 | the spinner shows the selected index and its echo changes nothing else |
| Widget.Picker.SpinnerSetValue | src/com/bric/swing/IndexedColorPicker.java:472 | the same value does nothing; a new value reaches the handler, which ignores it while the spinner counter is raised and otherwise selects it, refusing n |
| Widget.Picker.ChangeListener | src/com/bric/swing/IndexedColorPicker.java:270-286 | an event from a control whose counter is raised is dropped; otherwise the panel's or the spinner's value is selected, and the spinner value n is refused |
| Widget.Picker.SpinnerEdited | src/com/bric/swing/IndexedColorPicker.java:342 | a user edit in [0, n) selects that index and leaves all views synchronised and at rest; the edit n is refused, leaves the spinner showing n and changes nothing else (selection, preview, events, counters, panel index and notices) |

## Left out

- The demo `main`, `showDialog` and the dialog class are not part of this model. They only build windows around the picker.
- Painting is left out, except for the marker centre. This covers the focus ring, the bevel, antialiasing and the drawing of the raster onto the screen. It also covers `repaint`, `requestFocus`, the cursor and the preferred size. None of these changes the state the model tracks.
- Localised strings (`ResourceBundle`) and the value label are left out. They are presentation only.
- `synchronized` on `regenerateImage` is not modelled: the model is single-threaded, as Swing's event thread is.
- Modifying the listener list while it is being iterated is not modelled. Only outside listeners could do that, and they are opaque here.
- `Math.sqrt(n) + 0.5` truncated to an int is replaced by `RoundSqrt`, the integer c with c(c-1) < n <= c(c+1). They agree for 2 to 256 colours, but floating point is outside the model.
- Java int overflow is not modelled. The coordinates and sizes involved stay far below 2^31, except for pointer points at the extremes of the int range.
- `Color`, `BufferedImage`, `JSpinner` and `IndexColorModel` are reduced to the values the core reads. These are an int per colour, an `array2<int>` raster, a value with bounds [0, n], and a `seq<int>` of ARGB entries.
- The array returned by `getColors()` is shared with the panel. It is modelled as one immutable `seq`, because neither class writes it after the constructor.
- The public static `MAX_COLS`, `MAX_CELLSIZE` and `PREF_CELLSIZE` are modelled as constants. Nothing in the core assigns them.
- The focus listener is left out; it only repaints.
- `setColor(Color)` is not modelled on its own: it is `SetRGB` of the colour's components.
- `setValueControlsVisible`, `setPreviewSwatchVisible`, `getColorModel` and `getColorPanel` are left out. They are visibility switches and field reads.
- The panel's `getColorIndex` is the field read `colorIndex` and has no member of its own.
- A spinner edit outside [0, n] is discarded by the spinner control before any listener runs. `Widget.Picker.SpinnerEdited` models it as a no-op.
- Widget.Panel.Resize: runs the corrected regeneration, so on a grid with blank cells it paints the last row instead of throwing as `componentResized` does. `Widget.Panel.ResizeAsWritten` models the code as written.
- A listener's identity in the model is its whole value, including whether it throws. One id is meant to name one object, but the model does not enforce this: `External(1, false)` and `External(1, true)` register as two listeners.
- Widget.Picker.SpinnerEdited: the synchronisation guarantee covers only edits in [0, n). The edit n leaves the spinner out of step with the selection, as the code does.

## Findings

| source | as written | input that shows it | evidently intended | confidence | as-written member | corrected member |
|---|---|---|---|---|---|---|
| src/com/bric/swing/IndexedColorPickerPanel.java:238-240 | the row fill reads `colors[r*cols + x/cellSize]` for every pixel of every grid row, so a blank cell in the last row indexes past the palette and `regenerateImage` throws `ArrayIndexOutOfBoundsException` on every resize that gives a positive cell size, leaving the last row unpainted | 7 colours in a 100 x 100 component: the grid is 4 x 2 with cell size 22, and pixel x = 87 of row 1 reads `colors[7]` | blank cells are left transparent (their content is undefined and never selectable) and every colour cell is painted | not executed | Widget.Panel.RegenerateImageAsWritten | Widget.Panel.RegenerateImage |

`Widget.SevenColoursOverrun` works out the counterexample input. `Widget.Panel.ResizeAsWritten` is `componentResized` as written; `Widget.Panel.Resize` uses the corrected regeneration.

=== FILE: geometry.dfy ===
/** The integer geometry of the palette grid: the near-square grid search, the
    cell size that fits a component, the pointer and arrow-key mappings onto a
    colour index, the selection marker and the pixel-to-cell mapping of the
    raster. Java's truncating `/` is written out as JavaDiv. */
module Geometry {
  import opened Palette

  /** The grid is at most 16 cells wide and 16 cells high. */
  const MAX_COLS := 16
  /** The largest cell, in pixels. */
  const MAX_CELLSIZE := 30
  const MAX_SIZE := MAX_CELLSIZE * MAX_COLS
  const PAD := 6

  function Abs(a: int): nat { if a < 0 then -a else a }

  function Min(a: int, b: int): int { if a <= b then a else b }

  /** Java's int `/`: the quotient is truncated toward zero, so the remainder is
      smaller than the divisor and has the sign of the dividend. */
  function JavaDiv(a: int, b: int): (q: int)
    requires b != 0
    ensures Abs(q) == Abs(a) / Abs(b)
    ensures q > 0 ==> (a > 0 <==> b > 0)
    ensures q < 0 ==> (a > 0 <==> b < 0)
  {
    var m := Abs(a) / Abs(b);
    NatDiv(Abs(a), Abs(b));
    if (a >= 0) == (b > 0) then m else -m
  }

  lemma NatDiv(x: int, y: int)
    requires x >= 0 && y > 0
    ensures 0 <= x / y
    ensures x < y ==> x / y == 0
  {
    var q := x / y;
    assert x == q * y + x % y;
    if q < 0 { MulMono(q, -1, y); }
    if x < y { DivUnique(x, y, 0, x); }
  }

  /** The defining property of truncating division: the remainder is smaller
      than the divisor in magnitude and is zero or has the sign of the dividend. */
  lemma JavaDivTruncates(a: int, b: int)
    requires b != 0
    ensures var q := JavaDiv(a, b);
      Abs(a - q * b) < Abs(b) && (a - q * b == 0 || (a - q * b < 0 <==> a < 0))
  {
    var q := JavaDiv(a, b);
    var A: int, B: int := Abs(a), Abs(b);
    var m: int := A / B;
    assert A == m * B + A % B;
    assert q == (if (a >= 0) == (b > 0) then m else -m);
    if b > 0 {
      assert b == B;
      assert q * b == (if a >= 0 then m * B else -(m * B));
    } else {
      assert b == -B;
      assert q * b == (if a >= 0 then m * B else -(m * B));
    }
  }

  /** With a positive divisor, Java's quotient is Dafny's floor quotient for a
      non-negative dividend and one more than it for a negative dividend that
      the divisor does not divide. */
  lemma JavaDivPositive(a: int, b: int)
    requires b > 0
    ensures a >= 0 ==> JavaDiv(a, b) == a / b
    ensures a < 0 ==> JavaDiv(a, b) <= 0
    ensures -b < a < 0 ==> JavaDiv(a, b) == 0
  {
  }

  // ----- grid search -------------------------------------------------------

  /** `(n + (c - 1)) / c`: the fewest rows of c columns that hold n cells. */
  function CeilDiv(n: int, c: int): (r: int)
    requires n >= 0 && c >= 1
    ensures r >= 0
  {
    (n + (c - 1)) / c
  }

  /** CeilDiv is the ceiling of n / c: its rows hold all n cells and leave
      fewer than one row of blanks. */
  lemma CeilDivBounds(n: int, c: int)
    requires n >= 0 && c >= 1
    ensures CeilDiv(n, c) * c >= n && CeilDiv(n, c) * c - n < c
  {
    var q := CeilDiv(n, c);
    assert n + (c - 1) == q * c + (n + (c - 1)) % c;
  }

  /** The unused cells of a grid of c columns holding n colours. */
  function Blanks(n: int, c: int): int
    requires n >= 0 && c >= 1
  {
    CeilDiv(n, c) * c - n
  }

  /** `(int)(Math.sqrt(n) + 0.5)` for n >= 1: the unique c >= 1 with
      c*(c-1) < n <= c*(c+1) (see RoundSqrtUnique). */
  function RoundSqrt(n: int): (c: int)
    requires n >= 1
    ensures c >= 1 && c * (c - 1) < n <= c * (c + 1)
  {
    RoundSqrtFrom(n, 1)
  }

  function RoundSqrtFrom(n: int, c: int): (r: int)
    requires c >= 1 && c * (c - 1) < n
    ensures r >= c && r * (r - 1) < n <= r * (r + 1)
    decreases n - c
  {
    if n <= c * (c + 1) then c
    else
      assert (c + 1) * ((c + 1) - 1) == c * (c + 1);
      RoundSqrtFrom(n, c + 1)
  }

  lemma MulMono(a: int, b: int, k: int)
    requires a <= b && k >= 0
    ensures a * k <= b * k
  {
    assert (b - a) * k >= 0;
    assert (b - a) * k == b * k - a * k;
  }

  /** The rounded square root is the only integer with its defining bounds. */
  lemma RoundSqrtUnique(n: int, c: int)
    requires n >= 1 && c >= 1 && c * (c - 1) < n <= c * (c + 1)
    ensures c == RoundSqrt(n)
  {
    var d := RoundSqrt(n);
    if c < d { ProductGrows(c, d); }
    if d < c { ProductGrows(d, c); }
  }

  lemma ProductGrows(a: int, b: int)
    requires 1 <= a < b
    ensures a * (a + 1) <= b * (b - 1)
  {
    MulMono(a, b - 1, a + 1);
    MulMono(a + 1, b, b - 1);
  }

  /** The search goes on past nc: nc is still a candidate width and the grid
      is not yet more than twice as wide as it is high. */
  predicate Continues(n: int, nc: int)
    requires n >= 0 && nc >= 1
  {
    nc < n && nc <= MAX_COLS && nc <= 2 * CeilDiv(n, nc)
  }

  /** The widths the search looks at: the rounded square root, then every wider
      width up to, and not including, the first one that stops the search. */
  ghost predicate Candidate(n: int, k: int)
    requires n >= 1
  {
    k == RoundSqrt(n) ||
    (RoundSqrt(n) < k && forall j :: RoundSqrt(n) < j <= k ==> Continues(n, j))
  }

  /** c has the fewest blanks among the candidates, and every narrower
      candidate has strictly more (ties keep the narrower grid). */
  ghost predicate FirstMinimiser(n: int, c: int)
    requires n >= 1
  {
    && Candidate(n, c) && c >= 1
    && (forall k :: k >= 1 && Candidate(n, k) ==> Blanks(n, c) <= Blanks(n, k))
    && (forall k :: 1 <= k < c && Candidate(n, k) ==> Blanks(n, c) < Blanks(n, k))
  }

  /** The grid search of the panel constructor: start from the nearest square and
      adopt a wider grid only when it has strictly fewer blanks. */
  method ComputeGrid(n: int) returns (cols: int, rows: int)
    requires n >= 1
    ensures FirstMinimiser(n, cols)
    ensures rows == CeilDiv(n, cols)
  {
    // Start from the width nearest the square root.
    cols := RoundSqrt(n);
    rows := (n + (cols - 1)) / cols;
    var blanks := rows * cols - n;
    ghost var c0 := cols;
    // Then look at wider grids, one column at a time.
    var nc := cols + 1;
    while nc < n && nc <= MAX_COLS
      invariant c0 == RoundSqrt(n) && c0 < nc
      invariant forall j :: c0 < j < nc ==> Continues(n, j)
      invariant cols == c0 || c0 < cols < nc
      invariant rows == CeilDiv(n, cols) && blanks == Blanks(n, cols)
      invariant forall k :: (k == c0 || c0 < k < nc) ==> blanks <= Blanks(n, k)
      invariant forall k :: (k == c0 || c0 < k < nc) && k < cols ==> blanks < Blanks(n, k)
      decreases MAX_COLS - nc
    {
      var nr := (n + (nc - 1)) / nc;
      var nb := nr * nc - n;
      if nc > 2 * nr {  // more than twice as wide as high: stop
        break;
      }
      if nb < blanks {  // adopt only a strict improvement
        cols, rows, blanks := nc, nr, nb;
      }
      nc := nc + 1;
    }
    assert !Continues(n, nc);
    assert forall k :: k >= 1 && Candidate(n, k) ==> k == c0 || c0 < k < nc;
  }

  /** There is only one first minimiser, so the grid search is determined by n. */
  lemma FirstMinimiserUnique(n: int, a: int, b: int)
    requires n >= 1 && FirstMinimiser(n, a) && FirstMinimiser(n, b)
    ensures a == b
  {
  }

  /** Wider grids need no more rows. */
  lemma CeilDivAntitone(n: int, a: int, b: int)
    requires n >= 0 && 1 <= a <= b
    ensures CeilDiv(n, b) <= CeilDiv(n, a)
  {
    var ra, rb := CeilDiv(n, a), CeilDiv(n, b);
    CeilDivBounds(n, a);
    CeilDivBounds(n, b);
    MulMono(a, b, ra);
    // rb * b < n + b <= ra * a + b <= (ra + 1) * b
    assert rb * b < (ra + 1) * b;
    MulCancel(rb, ra + 1, b);
  }

  lemma MulCancel(x: int, y: int, k: int)
    requires k > 0 && x * k < y * k
    ensures x < y
  {
    if x >= y { MulMono(y, x, k); }
  }

  /** For 2 to 256 colours the square start has at most 16 columns and rows and
      is at least as high as it is wide. */
  lemma SquareStartFits(n: int)
    requires 2 <= n <= MAX_COLORS
    ensures RoundSqrt(n) <= MAX_COLS
    ensures RoundSqrt(n) <= CeilDiv(n, RoundSqrt(n)) <= MAX_COLS
  {
    var c := RoundSqrt(n);
    SquareNarrow(n, c);
    CeilDivBounds(n, c);
    SquareTall(n, c, CeilDiv(n, c));
    SquareLow(n, c, CeilDiv(n, c));
  }

  lemma SquareNarrow(n: int, c: int)
    requires n <= MAX_COLORS && c >= 1 && c * (c - 1) < n
    ensures c <= MAX_COLS
  {
    if c > MAX_COLS { MulMono(17, c, c - 1); }
  }

  lemma SquareTall(n: int, c: int, r: int)
    requires c >= 1 && c * (c - 1) < n <= r * c
    ensures c <= r
  {
    if r < c { MulMono(r, c - 1, c); }
  }

  lemma SquareLow(n: int, c: int, r: int)
    requires 1 <= c <= MAX_COLS && n <= MAX_COLORS && n <= c * (c + 1) && r * c - n < c
    ensures r <= MAX_COLS
  {
    assert r * c < (c + 2) * c;
    MulCancel(r, c + 2, c);
  }

  /** The shape facts the panel keeps about its grid. */
  lemma GridShape(n: int, cols: int, rows: int)
    requires 2 <= n <= MAX_COLORS && FirstMinimiser(n, cols) && rows == CeilDiv(n, cols)
    ensures 1 <= cols <= MAX_COLS && 1 <= rows <= MAX_COLS
    ensures rows * cols >= n && (rows - 1) * cols < n
  {
    GridFits(n, cols);
    CeilDivBounds(n, cols);
    Distribute(rows, cols);
  }

  lemma Distribute(a: int, b: int)
    ensures (a - 1) * b == a * b - b
  {
  }

  lemma MulSucc(a: int, b: int)
    ensures (a + 1) * b == a * b + b
  {
  }

  /** For 2 to 256 colours the chosen grid fits the fixed 16 x 16 image, holds
      every colour with fewer blanks than one row, and is at most twice as wide
      as it is high. */
  lemma GridFits(n: int, cols: int)
    requires 2 <= n <= MAX_COLORS && FirstMinimiser(n, cols)
    ensures 1 <= cols <= MAX_COLS
    ensures 1 <= CeilDiv(n, cols) <= MAX_COLS
    ensures cols <= 2 * CeilDiv(n, cols)
    ensures CeilDiv(n, cols) * cols >= n && 0 <= Blanks(n, cols) < cols
  {
    SquareStartFits(n);
    CeilDivBounds(n, cols);
    var c0 := RoundSqrt(n);
    if cols != c0 {
      assert Continues(n, cols);
      CeilDivAntitone(n, c0, cols);
    }
  }

  /** Worked examples of the grid search (columns x rows): 2 -> 1 x 2. */
  lemma GridOfTwo()
    ensures FirstMinimiser(2, 1) && CeilDiv(2, 1) == 2
  {
    RoundSqrtUnique(2, 1);
    assert !Continues(2, 2);
  }

  /** 6 -> 2 x 3: the 3 x 2 grid also has no blanks, and ties keep the narrower grid. */
  lemma GridOfSix()
    ensures FirstMinimiser(6, 2) && CeilDiv(6, 2) == 3
  {
    RoundSqrtUnique(6, 2);
    assert Continues(6, 3) && Continues(6, 4) && !Continues(6, 5);
    assert Blanks(6, 2) == 0;
  }

  /** 7 -> 4 x 2 with one blank: 3 x 3 has two. */
  lemma GridOfSeven()
    ensures FirstMinimiser(7, 4) && CeilDiv(7, 4) == 2 && Blanks(7, 4) == 1
  {
    RoundSqrtUnique(7, 3);
    assert Continues(7, 4) && !Continues(7, 5);
    assert Blanks(7, 3) == 2;
  }

  /** 16 -> 4 x 4, a perfect square. */
  lemma GridOfSixteen()
    ensures FirstMinimiser(16, 4) && CeilDiv(16, 4) == 4
  {
    RoundSqrtUnique(16, 4);
    assert Blanks(16, 4) == 0;
  }

  /** 128 -> 16 x 8: 16 is the first width without blanks; 17 exceeds MAX_COLS. */
  lemma GridOf128()
    ensures FirstMinimiser(128, 16) && CeilDiv(128, 16) == 8
  {
    RoundSqrtUnique(128, 11);
    assert Continues(128, 12) && Continues(128, 13) && Continues(128, 14);
    assert Continues(128, 15) && Continues(128, 16) && !Continues(128, 17);
    assert Blanks(128, 11) == 4 && Blanks(128, 12) == 4 && Blanks(128, 13) == 2;
    assert Blanks(128, 14) == 12 && Blanks(128, 15) == 7 && Blanks(128, 16) == 0;
  }

  /** 256 -> 16 x 16. */
  lemma GridOf256()
    ensures FirstMinimiser(256, 16) && CeilDiv(256, 16) == 16
  {
    RoundSqrtUnique(256, 16);
    assert !Continues(256, 17);
    assert forall k :: k >= 1 && Candidate(256, k) ==> k == 16;
    assert Blanks(256, 16) == 0;
  }

  // ----- cell size ------------------------------------------------------------

  /** The drawable extent along one axis: the component less its padding, at most MAX_SIZE. */
  function Extent(view: int): int { Min(MAX_SIZE, view - 2 * PAD) }

  /** The cell size `sizeToFit` chooses for a component of the given size. */
  function FitCellSize(viewWidth: int, viewHeight: int, cols: int, rows: int): (s: int)
    requires cols >= 1 && rows >= 1
    ensures s <= MAX_CELLSIZE && s <= JavaDiv(Extent(viewWidth), cols) && s <= JavaDiv(Extent(viewHeight), rows)
    ensures s == MAX_CELLSIZE || s == JavaDiv(Extent(viewWidth), cols) || s == JavaDiv(Extent(viewHeight), rows)
  {
    Min(Min(JavaDiv(Extent(viewWidth), cols), MAX_CELLSIZE),
        Min(JavaDiv(Extent(viewHeight), rows), MAX_CELLSIZE))
  }

  lemma DivTimes(a: int, b: int)
    requires a >= 0 && b >= 1
    ensures (a / b) * b <= a < (a / b + 1) * b
  {
  }

  /** The cell size never exceeds MAX_CELLSIZE; a positive one makes the grid fit
      the padded component; and it is the largest size with that property. There
      is no clamp to 1: a small component gives size 0 or less. */
  lemma FitCellSizeBounds(viewWidth: int, viewHeight: int, cols: int, rows: int)
    requires cols >= 1 && rows >= 1
    ensures FitCellSize(viewWidth, viewHeight, cols, rows) <= MAX_CELLSIZE
    ensures var s := FitCellSize(viewWidth, viewHeight, cols, rows);
      (s > 0 || (viewWidth >= 2 * PAD && viewHeight >= 2 * PAD)) ==>
        0 <= s && s * cols <= Extent(viewWidth) && s * rows <= Extent(viewHeight)
    ensures var s := FitCellSize(viewWidth, viewHeight, cols, rows);
      (viewWidth >= 2 * PAD && viewHeight >= 2 * PAD) ==>
        s == MAX_CELLSIZE || (s + 1) * cols > Extent(viewWidth) || (s + 1) * rows > Extent(viewHeight)
  {
    var w, h := Extent(viewWidth), Extent(viewHeight);
    var s := FitCellSize(viewWidth, viewHeight, cols, rows);
    JavaDivPositive(w, cols);
    JavaDivPositive(h, rows);
    if s > 0 || (viewWidth >= 2 * PAD && viewHeight >= 2 * PAD) {
      assert w >= 0 && h >= 0;
      AxisFit(w, cols, s);
      AxisFit(h, rows, s);
    }
  }

  /** One axis of `sizeToFit`: a size up to the quotient fits the extent, and
      one more than the quotient does not. */
  lemma AxisFit(e: int, k: int, s: int)
    requires k >= 1 && e >= 0 && s <= e / k
    ensures s * k <= e
    ensures (e / k + 1) * k > e
  {
    DivTimes(e, k);
    MulMono(s, e / k, k);
  }

  // ----- pointer and keys ----------------------------------------------------

  datatype Hit = DivideByZero | Outside | Cell(index: int)

  /** Where the centred grid starts inside the component along one axis. */
  function Origin(view: int, extent: int): int { JavaDiv(view, 2) - JavaDiv(extent, 2) }

  /** `mousePressed`: shift the point by the grid origin, divide by the cell size
      (truncating), and hit a cell only when its column and row are in range. */
  function PointerHit(px: int, py: int, viewWidth: int, viewHeight: int, width: int, height: int,
                      cellSize: int, cols: int, rows: int): (h: Hit)
    requires cols >= 1 && rows >= 1
    ensures h == DivideByZero <==> cellSize == 0
  {
    var x := px - Origin(viewWidth, width);
    var y := py - Origin(viewHeight, height);
    if cellSize == 0 then DivideByZero
    else
      var c := JavaDiv(x, cellSize);
      var r := JavaDiv(y, cellSize);
      if c < 0 || c >= cols || r < 0 || r >= rows then Outside
      else Cell(r * cols + c)
  }

  /** A hit names a cell of the grid: column and row in range, so the index is
      below rows * cols. */
  lemma PointerHitInGrid(px: int, py: int, viewWidth: int, viewHeight: int, width: int, height: int,
                         cellSize: int, cols: int, rows: int)
    requires cols >= 1 && rows >= 1
    requires PointerHit(px, py, viewWidth, viewHeight, width, height, cellSize, cols, rows).Cell?
    ensures var i := PointerHit(px, py, viewWidth, viewHeight, width, height, cellSize, cols, rows).index;
      0 <= i < rows * cols && 0 <= i % cols < cols
  {
    var x := px - Origin(viewWidth, width);
    var y := py - Origin(viewHeight, height);
    var c, r := JavaDiv(x, cellSize), JavaDiv(y, cellSize);
    assert PointerHit(px, py, viewWidth, viewHeight, width, height, cellSize, cols, rows) == Cell(r * cols + c);
    GridIndex(r, c, cols, rows);
  }

  /** Cell (r, c) of a rows x cols grid has a row-major index inside the grid,
      in column c. */
  lemma GridIndex(r: int, c: int, cols: int, rows: int)
    requires 0 <= c < cols && 0 <= r < rows
    ensures 0 <= r * cols + c < rows * cols && (r * cols + c) % cols == c
  {
    MulMono(0, r, cols);
    MulMono(r, rows - 1, cols);
    Distribute(rows, cols);
    DivMod(r * cols + c, cols, r, c);
  }

  /** The colour index painted at pixel (x, y) of the grid. */
  function CellAt(x: int, y: int, cellSize: int, cols: int): int
    requires x >= 0 && y >= 0 && cellSize > 0
  {
    (y / cellSize) * cols + x / cellSize
  }

  /** A pixel of the painted grid lies in the cell of its own row band. */
  lemma CellAtBand(r: int, dy: int, x: int, cellSize: int, cols: int)
    requires r >= 0 && 0 <= dy < cellSize && x >= 0
    ensures (r * cellSize + dy) / cellSize == r
    ensures CellAt(x, r * cellSize + dy, cellSize, cols) == r * cols + x / cellSize
  {
    DivUnique(r * cellSize + dy, cellSize, r, dy);
  }

  /** Division is determined by quotient and remainder. */
  lemma DivUnique(a: int, b: int, q: int, m: int)
    requires b > 0 && 0 <= m < b && a == q * b + m
    ensures a / b == q
  {
    var q' := a / b;
    assert a == q' * b + a % b;
    if q' < q { MulMono(q' + 1, q, b); }
    if q < q' { MulMono(q + 1, q', b); }
  }

  /** Every pixel of the painted grid shows a cell of the grid. */
  lemma CellAtRange(x: int, y: int, cellSize: int, cols: int, rows: int)
    requires cellSize > 0 && cols >= 1 && rows >= 1
    requires 0 <= x < cols * cellSize && 0 <= y < rows * cellSize
    ensures 0 <= x / cellSize < cols && 0 <= y / cellSize < rows
    ensures 0 <= CellAt(x, y, cellSize, cols) < rows * cols
  {
    DivBelow(x, cellSize, cols);
    DivBelow(y, cellSize, rows);
    MulMono(y / cellSize, rows - 1, cols);
    assert (rows - 1) * cols == rows * cols - cols;
  }

  lemma DivBelow(a: int, b: int, k: int)
    requires b > 0 && 0 <= a < k * b
    ensures 0 <= a / b < k
  {
    var q := a / b;
    assert q * b <= a;
    if q >= k { MulMono(k, q, b); }
  }

  /** A click on a painted pixel selects the colour painted there. */
  lemma PointerHitsPaintedCell(px: int, py: int, viewWidth: int, viewHeight: int,
                               cellSize: int, cols: int, rows: int)
    requires cellSize > 0 && cols >= 1 && rows >= 1
    requires var x := px - Origin(viewWidth, cellSize * cols); 0 <= x < cols * cellSize
    requires var y := py - Origin(viewHeight, cellSize * rows); 0 <= y < rows * cellSize
    ensures PointerHit(px, py, viewWidth, viewHeight, cellSize * cols, cellSize * rows, cellSize, cols, rows)
            == Cell(CellAt(px - Origin(viewWidth, cellSize * cols), py - Origin(viewHeight, cellSize * rows), cellSize, cols))
  {
    var x := px - Origin(viewWidth, cellSize * cols);
    var y := py - Origin(viewHeight, cellSize * rows);
    JavaDivPositive(x, cellSize);
    JavaDivPositive(y, cellSize);
    CellAtRange(x, y, cellSize, cols, rows);
  }

  /** Truncation toward zero widens the clickable area: a hit cell's point lies
      less than one cell before the grid, not only inside it. */
  lemma PointerHitArea(px: int, py: int, viewWidth: int, viewHeight: int, width: int, height: int,
                       cellSize: int, cols: int, rows: int)
    requires cellSize > 0 && cols >= 1 && rows >= 1
    requires PointerHit(px, py, viewWidth, viewHeight, width, height, cellSize, cols, rows).Cell?
    ensures -cellSize < px - Origin(viewWidth, width) < cols * cellSize
    ensures -cellSize < py - Origin(viewHeight, height) < rows * cellSize
  {
    var x := px - Origin(viewWidth, width);
    var y := py - Origin(viewHeight, height);
    AxisHit(x, cellSize, cols);
    AxisHit(y, cellSize, rows);
  }

  /** One axis of a hit: a quotient in [0, k) comes from an offset in (-cellSize, k * cellSize). */
  lemma AxisHit(x: int, cellSize: int, k: int)
    requires cellSize > 0 && k >= 1 && 0 <= JavaDiv(x, cellSize) < k
    ensures -cellSize < x < k * cellSize
  {
    var q := JavaDiv(x, cellSize);
    if x >= 0 {
      JavaDivPositive(x, cellSize);
      DivTimes(x, cellSize);
      MulMono(q + 1, k, cellSize);
    } else {
      DivTimes(-x, cellSize);
    }
  }

  /** A click up to one cell left of the grid still selects a cell of column 0. */
  lemma PointerLeftOfGrid(px: int, py: int, viewWidth: int, viewHeight: int,
                          cellSize: int, cols: int, rows: int)
    requires cellSize > 1 && cols >= 1 && rows >= 1
    requires px - Origin(viewWidth, cellSize * cols) == -1
    requires var y := py - Origin(viewHeight, cellSize * rows); 0 <= y < rows * cellSize
    ensures PointerHit(px, py, viewWidth, viewHeight, cellSize * cols, cellSize * rows, cellSize, cols, rows)
            == Cell(((py - Origin(viewHeight, cellSize * rows)) / cellSize) * cols)
  {
    var y := py - Origin(viewHeight, cellSize * rows);
    JavaDivPositive(-1, cellSize);
    JavaDivPositive(y, cellSize);
    CellAtRange(0, y, cellSize, cols, rows);
  }

  /** A component too small for one pixel per cell gives a negative cell size,
      and the truncating division still maps a press onto a cell: 16 colours in
      a 5 x 5 panel give cell size -1, and a press at (2, 2) selects index 10. */
  lemma NegativeCellSizeHit()
    ensures FirstMinimiser(16, 4) && CeilDiv(16, 4) == 4
    ensures FitCellSize(5, 5, 4, 4) == -1
    ensures PointerHit(2, 2, 5, 5, -1 * 4, -1 * 4, -1, 4, 4) == Cell(10)
  {
    GridOfSixteen();
    assert JavaDiv(Extent(5), 4) == -1;
    assert JavaDiv(2 - Origin(5, -4), -1) == 2;
  }

  datatype Key = Left | Right | Up | Down | OtherKey

  /** The index change of an arrow key. */
  function KeyStep(key: Key, cols: int): int
  {
    match key
    case Left => -1
    case Right => 1
    case Up => -cols
    case Down => cols
    case OtherKey => 0
  }

  /** `keyPressed`: an arrow key moves the index; a target outside [0, n) and
      any other key are ignored (no wrap-around, no clamping). */
  function KeyTarget(index: int, key: Key, cols: int, n: int): (t: Option<int>)
    ensures t.Some? ==> 0 <= t.value < n && (t.value != index || cols == 0)
    ensures t.Some? <==> key != OtherKey && 0 <= index + KeyStep(key, cols) < n
    ensures t.Some? ==> t.value == index + KeyStep(key, cols)
  {
    if key == OtherKey then None
    else
      var idx := index + KeyStep(key, cols);
      if idx < 0 || idx >= n then None else Some(idx)
  }

  /** Opposite arrow keys undo each other. */
  lemma KeyTargetInverse(index: int, cols: int, n: int)
    requires 0 <= index < n
    ensures KeyTarget(index, Left, cols, n).Some? ==> KeyTarget(KeyTarget(index, Left, cols, n).value, Right, cols, n) == Some(index)
    ensures KeyTarget(index, Right, cols, n).Some? ==> KeyTarget(KeyTarget(index, Right, cols, n).value, Left, cols, n) == Some(index)
    ensures KeyTarget(index, Up, cols, n).Some? ==> KeyTarget(KeyTarget(index, Up, cols, n).value, Down, cols, n) == Some(index)
    ensures KeyTarget(index, Down, cols, n).Some? ==> KeyTarget(KeyTarget(index, Down, cols, n).value, Up, cols, n) == Some(index)
  {
  }

  /** Up and Down keep the column and change the row by one; Left and Right step
      to the neighbouring index, so Left from column 0 lands on the last column
      of the row above. */
  lemma KeyTargetMoves(index: int, cols: int, n: int)
    requires cols >= 1 && 0 <= index < n
    ensures var t := KeyTarget(index, Up, cols, n);
      t.Some? ==> t.value % cols == index % cols && t.value / cols == index / cols - 1
    ensures var t := KeyTarget(index, Down, cols, n);
      t.Some? ==> t.value % cols == index % cols && t.value / cols == index / cols + 1
    ensures KeyTarget(index, Left, cols, n) == if index > 0 then Some(index - 1) else None
    ensures KeyTarget(index, Right, cols, n) == if index + 1 < n then Some(index + 1) else None
    ensures index > 0 && index % cols == 0 ==>
      KeyTarget(index, Left, cols, n).value % cols == cols - 1 &&
      KeyTarget(index, Left, cols, n).value / cols == index / cols - 1
  {
    var q, m := index / cols, index % cols;
    assert index == q * cols + m;
    Distribute(q, cols);
    MulSucc(q, cols);
    if index >= cols {
      DivMod(index - cols, cols, q - 1, m);
    }
    DivMod(index + cols, cols, q + 1, m);
    if index > 0 && m == 0 {
      DivMod(index - 1, cols, q - 1, cols - 1);
    }
  }

  lemma DivMod(a: int, b: int, q: int, m: int)
    requires b > 0 && 0 <= m < b && a == q * b + m
    ensures a / b == q && a % b == m
  {
    DivUnique(a, b, q, m);
  }

  // ----- selection marker ----------------------------------------------------

  /** The centre of the selection marker in grid coordinates, as `paint` computes it. */
  function MarkerCentre(index: int, cols: int, cellSize: int): (p: (int, int))
    requires index >= 0 && cols >= 1
    ensures cellSize > 0 ==>
      (index % cols) * cellSize <= p.0 < (index % cols + 1) * cellSize &&
      (index / cols) * cellSize <= p.1 < (index / cols + 1) * cellSize
  {
    var r := index / cols;
    var c := index % cols;
    if cellSize > 0 then
      HalfCellInside(c, cellSize);
      HalfCellInside(r, cellSize);
      (JavaDiv((2 * c + 1) * cellSize, 2), JavaDiv((2 * r + 1) * cellSize, 2))
    else
      (JavaDiv((2 * c + 1) * cellSize, 2), JavaDiv((2 * r + 1) * cellSize, 2))
  }

  lemma HalfCellInside(k: int, cellSize: int)
    requires k >= 0 && cellSize > 0
    ensures k * cellSize <= JavaDiv((2 * k + 1) * cellSize, 2) < (k + 1) * cellSize
    ensures JavaDiv(JavaDiv((2 * k + 1) * cellSize, 2), cellSize) == k
  {
    var p := (2 * k + 1) * cellSize;
    assert p == 2 * (k * cellSize) + cellSize;
    var h := JavaDiv(p, 2);
    assert h == p / 2;
    assert h == k * cellSize + cellSize / 2;
    DivUnique(h, cellSize, k, cellSize / 2);
  }

  /** The marker is drawn inside the selected cell, and clicking at its centre
      selects that same index again. */
  lemma MarkerRoundTrip(index: int, viewWidth: int, viewHeight: int, cellSize: int, cols: int, rows: int)
    requires cellSize > 0 && cols >= 1 && rows >= 1 && 0 <= index < rows * cols
    ensures var (px, py) := MarkerCentre(index, cols, cellSize);
      (index % cols) * cellSize <= px < (index % cols + 1) * cellSize &&
      (index / cols) * cellSize <= py < (index / cols + 1) * cellSize
    ensures var (px, py) := MarkerCentre(index, cols, cellSize);
      PointerHit(px + Origin(viewWidth, cellSize * cols), py + Origin(viewHeight, cellSize * rows),
                 viewWidth, viewHeight, cellSize * cols, cellSize * rows, cellSize, cols, rows) == Cell(index)
  {
    var r, c := index / cols, index % cols;
    assert index == r * cols + c;
    HalfCellInside(c, cellSize);
    HalfCellInside(r, cellSize);
    var (px, py) := MarkerCentre(index, cols, cellSize);
    assert JavaDiv(px, cellSize) == c && JavaDiv(py, cellSize) == r;
    assert r * cols < rows * cols;
    MulCancel(r, rows, cols);
    var ox, oy := Origin(viewWidth, cellSize * cols), Origin(viewHeight, cellSize * rows);
    assert (px + ox) - ox == px && (py + oy) - oy == py;
  }
}

=== FILE: palette.dfy ===
/** Colour arithmetic of the indexed picker: palette entries are Java ARGB ints,
    a `Color` built from one keeps its low 24 bits and is opaque, and colours
    are compared and searched by those 24 bits. */
module Palette {

  /** The picker accepts colour models with 2 to 256 entries. */
  const MIN_COLORS := 2
  const MAX_COLORS := 256

  datatype Option<T> = None | Some(value: T)

  /** `argb & 0xffffff` on a Java int. Dafny's `%` never returns a negative value,
      so it agrees with the two's-complement mask for negative ints as well. */
  function Low24(argb: int): (rgb: int)
    ensures 0 <= rgb < 0x100_0000
    ensures (argb - rgb) % 0x100_0000 == 0
  {
    argb % 0x100_0000
  }

  /** `(r << 16) | (g << 8) | b` for components in [0, 255]: the bit fields do
      not overlap, so the or is a sum. */
  function Pack(r: int, g: int, b: int): int
  {
    r * 0x1_0000 + g * 0x100 + b
  }

  /** `Color.getRed()`, `getGreen()`, `getBlue()` of an opaque colour. */
  function Red(rgb: int): int { rgb / 0x1_0000 % 0x100 }
  function Green(rgb: int): int { rgb / 0x100 % 0x100 }
  function Blue(rgb: int): int { rgb % 0x100 }

  predicate IsComponent(v: int) { 0 <= v <= 255 }

  /** Packing three components and reading them back gives the same components. */
  lemma UnpackPack(r: int, g: int, b: int)
    requires IsComponent(r) && IsComponent(g) && IsComponent(b)
    ensures 0 <= Pack(r, g, b) < 0x100_0000
    ensures Red(Pack(r, g, b)) == r && Green(Pack(r, g, b)) == g && Blue(Pack(r, g, b)) == b
  {
    var p := Pack(r, g, b);
    assert p / 0x100 == r * 0x100 + g;
    assert p / 0x1_0000 == r;
  }

  /** Every 24-bit colour is the packing of its own components. */
  lemma PackUnpack(rgb: int)
    requires 0 <= rgb < 0x100_0000
    ensures IsComponent(Red(rgb)) && IsComponent(Green(rgb)) && IsComponent(Blue(rgb))
    ensures Pack(Red(rgb), Green(rgb), Blue(rgb)) == rgb
  {
    assert rgb / 0x1_0000 < 0x100;
    assert rgb / 0x100 == (rgb / 0x1_0000) * 0x100 + rgb / 0x100 % 0x100;
  }

  /** The component that `setRGB` rejects first, checked in the order red, green, blue. */
  datatype Component = RedComponent | GreenComponent | BlueComponent

  function FirstBadComponent(r: int, g: int, b: int): (bad: Option<Component>)
    ensures bad == None <==> IsComponent(r) && IsComponent(g) && IsComponent(b)
    ensures bad == Some(RedComponent) <==> !IsComponent(r)
    ensures bad == Some(GreenComponent) <==> IsComponent(r) && !IsComponent(g)
    ensures bad == Some(BlueComponent) <==> IsComponent(r) && IsComponent(g) && !IsComponent(b)
  {
    if r < 0 || r > 255 then Some(RedComponent)
    else if g < 0 || g > 255 then Some(GreenComponent)
    else if b < 0 || b > 255 then Some(BlueComponent)
    else None
  }

  /** True when palette entry `i` has exactly the 24-bit colour `rgb` (alpha ignored). */
  predicate MatchesAt(modelRGB: seq<int>, i: int, rgb: int)
    requires 0 <= i < |modelRGB|
  {
    Low24(modelRGB[i]) == rgb
  }

  predicate InPalette(modelRGB: seq<int>, rgb: int)
  {
    exists i :: 0 <= i < |modelRGB| && MatchesAt(modelRGB, i, rgb)
  }

  /** The colours of the picker: one opaque `Color` per palette entry. */
  method CopyColors(modelRGB: seq<int>) returns (colors: seq<int>)
    ensures |colors| == |modelRGB|
    ensures forall i :: 0 <= i < |modelRGB| ==> colors[i] == Low24(modelRGB[i])
  {
    var a := new int[|modelRGB|];
    for i := 0 to |modelRGB|
      invariant forall k :: 0 <= k < i ==> a[k] == Low24(modelRGB[k])
    {
      a[i] := Low24(modelRGB[i]);
    }
    colors := a[..];
  }
}

=== FILE: widget.dfy ===
/** The two collaborating objects of the indexed colour picker.

    `Panel` is the grid of colour cells: it owns the displayed index, a list of
    change listeners and a fixed-size raster that it refills on every resize.
    `Picker` owns the authoritative selection and keeps the panel, a numeric
    spinner and a preview swatch in step with it. The listener fan-out is fixed
    wiring: the panel's listener list may hold the picker's handler, which it
    calls directly, and the spinner's only listener is that same handler.
    Two depth counters in the picker keep the handler from reacting to the
    echoes of its own updates, and they are what makes the mutual recursion
    terminate (the `decreases` clauses below). */
module Widget {
  import opened Palette
  import opened Geometry

  /** How an operation ends: normally, or with the Java exception it throws. */
  datatype Status = Ok | IllegalArgument | Arithmetic | IndexOutOfBounds

  /** A change listener of the panel: the picker's own handler, or outside code
      named by a number, which may throw a RuntimeException when called. */
  datatype Listener = PickerListener | External(id: nat, throws: bool)

  /** What outside code sees of a notification: the listener was called, and a
      stack trace was printed when it threw. */
  datatype Notice = Notified(id: nat) | StackTrace(id: nat)

  /** A SELECTED_COLOR_PROPERTY event with its old and new colour. */
  datatype ColorChange = ColorChange(oldColor: int, newColor: int)

  /** The control a change event comes from. */
  datatype Source = FromPanel | FromSpinner

  /** Pixel values of the raster: Java ARGB ints, read here as unsigned. A fresh
      image is all transparent. */
  const TRANSPARENT := 0

  /** `Color.getRGB()` of an opaque colour. */
  function Argb(rgb: int): int { 0xFF00_0000 + rgb }

  /** The pixel the raster should show at (x, y): the colour of the cell there,
      or transparent for a blank cell past the end of the palette. */
  function GridPixel(colors: seq<int>, cols: int, cellSize: int, x: int, y: int): int
    requires x >= 0 && y >= 0 && cellSize > 0
  {
    var i := CellAt(x, y, cellSize, cols);
    if 0 <= i < |colors| then Argb(colors[i]) else TRANSPARENT
  }

  // ----- listener list ---------------------------------------------------------

  predicate NoDuplicates(ls: seq<Listener>)
  {
    forall i, j :: 0 <= i < j < |ls| ==> ls[i] != ls[j]
  }

  /** `ArrayList.remove(Object)`: drop the first occurrence, if any. */
  function RemoveFirst(ls: seq<Listener>, l: Listener): (r: seq<Listener>)
    ensures |r| == if l in ls then |ls| - 1 else |ls|
  {
    if ls == [] then []
    else if ls[0] == l then ls[1..]
    else [ls[0]] + RemoveFirst(ls[1..], l)
  }

  /** On a list without duplicates, removal takes out exactly the listener and
      keeps the list free of duplicates. */
  lemma {:induction false} RemoveFirstSpec(ls: seq<Listener>, l: Listener)
    requires NoDuplicates(ls)
    ensures NoDuplicates(RemoveFirst(ls, l))
    ensures forall m :: m in RemoveFirst(ls, l) <==> m in ls && m != l
  {
    if ls != [] && ls[0] != l {
      assert NoDuplicates(ls[1..]) by {
        forall i, j | 0 <= i < j < |ls[1..]| ensures ls[1..][i] != ls[1..][j] {
          assert ls[1..][i] == ls[i + 1] && ls[1..][j] == ls[j + 1];
        }
      }
      RemoveFirstSpec(ls[1..], l);
      var rest := RemoveFirst(ls[1..], l);
      assert ls[0] !in ls[1..] by {
        forall j | 0 <= j < |ls[1..]| ensures ls[1..][j] != ls[0] {
          assert ls[1..][j] == ls[j + 1];
        }
      }
      assert ls[0] !in rest;
      var r := [ls[0]] + rest;
      forall i, j | 0 <= i < j < |r| ensures r[i] != r[j] {
        if i == 0 {
          assert r[j] == rest[j - 1];
          assert r[j] in rest;
        } else {
          assert r[i] == rest[i - 1] && r[j] == rest[j - 1];
        }
      }
      forall m ensures m in r <==> m in ls && m != l {
        assert m in ls <==> m == ls[0] || m in ls[1..];
      }
    } else if ls != [] {
      forall i, j | 0 <= i < j < |ls[1..]| ensures ls[1..][i] != ls[1..][j] {
        assert ls[1..][i] == ls[i + 1] && ls[1..][j] == ls[j + 1];
      }
      forall m ensures m in ls[1..] <==> m in ls && m != l {
        if m in ls[1..] {
          var j :| 0 <= j < |ls[1..]| && ls[1..][j] == m;
          assert ls[j + 1] == m;
        }
        assert m in ls <==> m == ls[0] || m in ls[1..];
      }
    }
  }

  /** The notices that calling one listener leaves. */
  function NoticesOf(l: Listener): seq<Notice>
  {
    match l
    case PickerListener => []
    case External(id, throws) => if throws then [Notified(id), StackTrace(id)] else [Notified(id)]
  }

  /** The notices one round of `fireChangeListeners` leaves, in list order. */
  function Notices(ls: seq<Listener>): seq<Notice>
  {
    if ls == [] then [] else Notices(ls[..|ls| - 1]) + NoticesOf(ls[|ls| - 1])
  }

  lemma {:induction false} NoticesAppend(a: seq<Listener>, b: seq<Listener>)
    ensures Notices(a + b) == Notices(a) + Notices(b)
    decreases |b|
  {
    if b == [] {
      assert a + b == a;
    } else {
      var b' := b[..|b| - 1];
      assert (a + b)[..|a + b| - 1] == a + b';
      assert (a + b)[|a + b| - 1] == b[|b| - 1];
      NoticesAppend(a, b');
    }
  }

  lemma SplitAt(ls: seq<Listener>, k: int)
    requires 0 <= k < |ls|
    ensures ls == (ls[..k] + [ls[k]]) + ls[k + 1..]
  {
  }

  lemma NoticesSingle(l: Listener)
    ensures Notices([l]) == NoticesOf(l)
  {
    assert [l][..0] == [];
  }

  /** Listener k is called after every earlier listener and before every later
      one, and is called whether or not any other listener throws. */
  lemma NoticesInOrder(ls: seq<Listener>, k: int)
    requires 0 <= k < |ls|
    ensures Notices(ls) == Notices(ls[..k]) + NoticesOf(ls[k]) + Notices(ls[k + 1..])
    ensures ls[k].External? ==> NoticesOf(ls[k])[0] == Notified(ls[k].id)
  {
    var before, after := ls[..k], ls[k + 1..];
    calc {
      Notices(ls);
    == { SplitAt(ls, k); }
      Notices((before + [ls[k]]) + after);
    == { NoticesAppend(before + [ls[k]], after); }
      Notices(before + [ls[k]]) + Notices(after);
    == { NoticesAppend(before, [ls[k]]); NoticesSingle(ls[k]); }
      Notices(before) + NoticesOf(ls[k]) + Notices(after);
    }
  }

  // ----- selection state of the picker -------------------------------------------

  /** Every mutable field of a picker, as one value. */
  datatype PickerView = PickerView(
    colorIndex: int, spinnerValue: int, preview: Option<int>, changes: seq<ColorChange>,
    adjustingColorPanel: int, adjustingValueSpinner: int, selections: nat)

  /** The property-change events of a move from index `last` to `idx`: `firePropertyChange`
      is called only when the index changed, and Swing drops an event whose old and
      new colours are equal. */
  function PropertyChange(colors: seq<int>, last: int, idx: int): (events: seq<ColorChange>)
    requires 0 <= last < |colors| && 0 <= idx < |colors|
    ensures |events| <= 1
    ensures events != [] <==> last != idx && colors[last] != colors[idx]
    ensures events != [] ==> events[0] == ColorChange(colors[last], colors[idx])
  {
    if last != idx && colors[last] != colors[idx] then [ColorChange(colors[last], colors[idx])] else []
  }

  /** The picker after an accepted `setColorIndex(idx)`. */
  function Selected(v: PickerView, colors: seq<int>, idx: int): PickerView
    requires 0 <= v.colorIndex < |colors| && 0 <= idx < |colors|
  {
    v.(colorIndex := idx, spinnerValue := idx, preview := Some(colors[idx]),
       changes := v.changes + PropertyChange(colors, v.colorIndex, idx),
       selections := v.selections + 1)
  }

  /** Selecting the same index twice fires no more than selecting it once. */
  lemma {:induction false} SelectTwiceFiresOnce(v: PickerView, colors: seq<int>, idx: int)
    requires 0 <= v.colorIndex < |colors| && 0 <= idx < |colors|
    ensures Selected(Selected(v, colors, idx), colors, idx).changes == Selected(v, colors, idx).changes
    ensures Selected(Selected(v, colors, idx), colors, idx).colorIndex == idx
  {
    assert PropertyChange(colors, idx, idx) == [];
  }

  // ----- the panel ---------------------------------------------------------------

  class Panel {
    const colors: seq<int>
    const cols: int
    const rows: int
    /** The raster, indexed [y, x], created once at MAX_SIZE x MAX_SIZE. */
    const image: array2<int>
    /** The pixel row recycled by every regeneration. */
    const row: array<int>
    var colorPicker: Picker?
    var colorIndex: int
    var listeners: seq<Listener>
    /** What the external listeners have been sent so far. */
    var delivered: seq<Notice>
    /** `getWidth()` and `getHeight()` of the component. */
    var viewWidth: int
    var viewHeight: int
    var width: int
    var height: int
    var cellSize: int

    ghost predicate Inv()
      reads this
    {
      && MIN_COLORS <= |colors| <= MAX_COLORS
      && 1 <= cols <= MAX_COLS && 1 <= rows <= MAX_COLS
      && rows * cols >= |colors| && (rows - 1) * cols < |colors|
      && image.Length0 == MAX_SIZE && image.Length1 == MAX_SIZE && row.Length == MAX_SIZE
      && 0 <= colorIndex < |colors|
      && NoDuplicates(listeners)
      && cellSize <= MAX_CELLSIZE && width == cellSize * cols && height == cellSize * rows
      && (cellSize > 0 ==> width <= MAX_SIZE && height <= MAX_SIZE)
    }

    /** The panel is wired to its picker. */
    ghost predicate Valid()
      reads this, colorPicker
    {
      Inv() && colorPicker != null && colorPicker.colorPanel == this && colorPicker.Wired()
    }

    /** The constructor: the grid search, a transparent raster, index 0 and no
      listeners. (Its `setColorIndex(0)` finds index 0 already set and does nothing.) */
    constructor (colors: seq<int>)
      requires MIN_COLORS <= |colors| <= MAX_COLORS
      ensures Inv() && fresh(image) && fresh(row)
      ensures FirstMinimiser(|colors|, cols) && rows == CeilDiv(|colors|, cols)
      ensures this.colors == colors && colorPicker == null
      ensures colorIndex == 0 && listeners == [] && delivered == []
      ensures viewWidth == 0 && viewHeight == 0 && cellSize == 0
      ensures forall y, x :: 0 <= y < MAX_SIZE && 0 <= x < MAX_SIZE ==> image[y, x] == TRANSPARENT
    {
      this.colors := colors;
      var c, r := ComputeGrid(|colors|);
      GridShape(|colors|, c, r);
      cols, rows := c, r;
      image := new int[MAX_SIZE, MAX_SIZE]((y, x) => TRANSPARENT);
      row := new int[MAX_SIZE](x => 0);
      colorPicker := null;
      colorIndex := 0;
      listeners, delivered := [], [];
      viewWidth, viewHeight := 0, 0;
      width, height, cellSize := 0, 0, 0;
    }

    /** `addChangeListener`: append a listener that is not yet registered. */
    method AddChangeListener(l: Listener)
      requires Inv()
      modifies this`listeners
      ensures Inv()
      ensures listeners == if l in old(listeners) then old(listeners) else old(listeners) + [l]
    {
      if l !in listeners {
        listeners := listeners + [l];
      }
    }

    /** `removeChangeListener`: take the listener out of the list. */
    method RemoveChangeListener(l: Listener)
      requires Inv()
      modifies this`listeners
      ensures Inv()
      ensures listeners == RemoveFirst(old(listeners), l)
      ensures l !in listeners && forall m :: m != l ==> (m in listeners <==> m in old(listeners))
    {
      RemoveFirstSpec(listeners, l);
      listeners := RemoveFirst(listeners, l);
    }

    /** `setColorIndex`: the current index is a no-op, an index outside [0, n)
        throws, and any other index is stored and announced to every listener. */
    method SetColorIndex(idx: int) returns (st: Status)
      requires Valid()
      modifies this`colorIndex, this`delivered, colorPicker
      decreases if colorPicker != null && colorPicker.adjustingColorPanel == 0 then 14 else 9
      ensures Valid()
      ensures st == (if idx == old(colorIndex) || 0 <= idx < |colors| then Ok else IllegalArgument)
      ensures idx == old(colorIndex) || st != Ok ==>
        colorIndex == old(colorIndex) && delivered == old(delivered) && colorPicker.View() == old(colorPicker.View())
      ensures idx != old(colorIndex) && st == Ok ==>
        && colorIndex == idx
        && delivered == old(delivered) + Notices(listeners)
        && colorPicker.View() ==
             if old(colorPicker.adjustingColorPanel) == 0 && PickerListener in listeners
             then Selected(old(colorPicker.View()), colors, idx) else old(colorPicker.View())
    {
      if idx == colorIndex {
        return Ok;
      }
      if idx < 0 || idx >= |colors| {
        return IllegalArgument;
      }
      colorIndex := idx;
      FireChangeListeners();
      return Ok;
    }

    /** `fireChangeListeners`: call every listener once, in list order; a
        listener's RuntimeException is caught and printed, and the loop goes on. */
    method FireChangeListeners()
      requires Valid()
      modifies this`colorIndex, this`delivered, colorPicker
      decreases if colorPicker != null && colorPicker.adjustingColorPanel == 0 then 13 else 8
      ensures Valid() && colorIndex == old(colorIndex)
      ensures delivered == old(delivered) + Notices(listeners)
      ensures colorPicker.View() ==
        if old(colorPicker.adjustingColorPanel) == 0 && PickerListener in listeners
        then Selected(old(colorPicker.View()), colors, colorIndex) else old(colorPicker.View())
    {
      var picker := colorPicker;
      ghost var v0 := picker.View();
      for i := 0 to |listeners|
        invariant Valid() && colorPicker == picker && colorIndex == old(colorIndex)
        invariant delivered == old(delivered) + Notices(listeners[..i])
        invariant picker.View() ==
          if v0.adjustingColorPanel == 0 && PickerListener in listeners[..i]
          then Selected(v0, colors, colorIndex) else v0
      {
        assert listeners[..i + 1][..i] == listeners[..i];
        assert PickerListener in listeners[..i + 1] <==> PickerListener in listeners[..i] || listeners[i] == PickerListener;
        assert listeners[i] == PickerListener ==> PickerListener !in listeners[..i];
        Notify(listeners[i]);
      }
      assert listeners[..|listeners|] == listeners;
    }

    /** One call of the loop in `fireChangeListeners`: the picker's handler gets
        a panel event; outside code is called, and a RuntimeException it throws
        is caught and printed. */
    method Notify(l: Listener)
      requires Valid()
      modifies this`colorIndex, this`delivered, colorPicker
      decreases if colorPicker != null && colorPicker.adjustingColorPanel == 0 then 12 else 7
      ensures Valid() && colorIndex == old(colorIndex)
      ensures delivered == old(delivered) + NoticesOf(l)
      ensures colorPicker.View() ==
        if old(colorPicker.adjustingColorPanel) == 0 && l == PickerListener
        then Selected(old(colorPicker.View()), colors, colorIndex) else old(colorPicker.View())
    {
      match l
      case PickerListener =>
        var _ := colorPicker.ChangeListener(FromPanel);
      case External(id, throws) =>
        delivered := delivered + [Notified(id)];
        if throws {
          delivered := delivered + [StackTrace(id)];
        }
    }

    /** `mousePressed` (and `mouseDragged`): select the cell under the pointer.
        Before the first resize the cell size is 0 and the division throws. */
    method MousePressed(px: int, py: int) returns (st: Status)
      requires Valid()
      modifies this`colorIndex, this`delivered, colorPicker
      ensures Valid()
      ensures var hit := PointerHit(px, py, viewWidth, viewHeight, width, height, cellSize, cols, rows);
        && (st == Arithmetic <==> cellSize == 0)
        && (hit.Cell? && hit.index >= |colors| ==> st == IllegalArgument)
        && (st == Ok <==> hit.Outside? || (hit.Cell? && hit.index < |colors|))
        && (!(hit.Cell? && hit.index < |colors|) ==>
              colorIndex == old(colorIndex) && delivered == old(delivered) && colorPicker.View() == old(colorPicker.View()))
        && (hit.Cell? && hit.index < |colors| ==> colorIndex == hit.index)
      ensures old(colorPicker.Synced()) && old(colorPicker.AtRest()) && PickerListener in listeners ==>
        colorPicker.Synced() && colorPicker.AtRest()
      ensures var hit := PointerHit(px, py, viewWidth, viewHeight, width, height, cellSize, cols, rows);
        old(colorPicker.AtRest()) && PickerListener in listeners && hit.Cell? && hit.index < |colors| && hit.index != old(colorIndex) ==>
          colorPicker.selections == old(colorPicker.selections) + 1
    ensures var hit := PointerHit(px, py, viewWidth, viewHeight, width, height, cellSize, cols, rows);
      hit.Cell? && hit.index < |colors| && hit.index != old(colorIndex) ==>
        && delivered == old(delivered) + Notices(listeners)
        && colorPicker.View() ==
             if old(colorPicker.adjustingColorPanel) == 0 && PickerListener in listeners
             then Selected(old(colorPicker.View()), colors, hit.index) else old(colorPicker.View())
    ensures var hit := PointerHit(px, py, viewWidth, viewHeight, width, height, cellSize, cols, rows);
      old(colorPicker.AtRest()) && PickerListener in listeners && hit.Cell? && hit.index < |colors| && hit.index != old(colorIndex) ==>
        colorPicker.Selects(hit.index)
    ensures var hit := PointerHit(px, py, viewWidth, viewHeight, width, height, cellSize, cols, rows);
      hit.Cell? && hit.index == old(colorIndex) ==>
        delivered == old(delivered) && colorPicker.View() == old(colorPicker.View())
    {
      var hit := PointerHit(px, py, viewWidth, viewHeight, width, height, cellSize, cols, rows);
      match hit
      case DivideByZero =>
        st := Arithmetic;
      case Outside =>
        st := Ok;
      case Cell(i) =>
        PointerHitInGrid(px, py, viewWidth, viewHeight, width, height, cellSize, cols, rows);
        st := SetColorIndex(i);
    }

    /** `keyPressed`: the arrow keys move the index; other keys and targets
        outside the palette are ignored. */
    method KeyPressed(key: Key) returns (st: Status)
      requires Valid()
      modifies this`colorIndex, this`delivered, colorPicker
      ensures Valid() && st == Ok
      ensures var t := KeyTarget(old(colorIndex), key, cols, |colors|);
        && (t.None? ==> colorIndex == old(colorIndex) && delivered == old(delivered) && colorPicker.View() == old(colorPicker.View()))
        && (t.Some? ==> colorIndex == t.value)
      ensures old(colorPicker.Synced()) && old(colorPicker.AtRest()) && PickerListener in listeners ==>
        colorPicker.Synced() && colorPicker.AtRest()
      ensures old(colorPicker.AtRest()) && PickerListener in listeners && KeyTarget(old(colorIndex), key, cols, |colors|).Some? ==>
        colorPicker.selections == old(colorPicker.selections) + 1
    ensures var t := KeyTarget(old(colorIndex), key, cols, |colors|);
      t.Some? ==>
        && delivered == old(delivered) + Notices(listeners)
        && colorPicker.View() ==
             if old(colorPicker.adjustingColorPanel) == 0 && PickerListener in listeners
             then Selected(old(colorPicker.View()), colors, t.value) else old(colorPicker.View())
    ensures var t := KeyTarget(old(colorIndex), key, cols, |colors|);
      old(colorPicker.AtRest()) && PickerListener in listeners && t.Some? ==> colorPicker.Selects(t.value)
    {
      var t := KeyTarget(colorIndex, key, cols, |colors|);
      if t.None? {
        return Ok;
      }
      st := SetColorIndex(t.value);
    }

    /** `sizeToFit`: the cell size and drawn extent for the current component size. */
    method SizeToFit()
      requires Inv()
      modifies this`width, this`height, this`cellSize
      ensures Inv()
      ensures cellSize == FitCellSize(viewWidth, viewHeight, cols, rows)
      ensures width == cellSize * cols && height == cellSize * rows
    {
      width := Min(MAX_SIZE, viewWidth - 2 * PAD);
      height := Min(MAX_SIZE, viewHeight - 2 * PAD);
      cellSize := Min(Min(JavaDiv(width, cols), MAX_CELLSIZE), Min(JavaDiv(height, rows), MAX_CELLSIZE));
      width := cellSize * cols;
      height := cellSize * rows;
      FitCellSizeBounds(viewWidth, viewHeight, cols, rows);
    }

    /** `image.getRaster().setDataElements(0, y, width, 1, row)`: copy the first
        `width` entries of the row buffer into raster row y. */
    method CopyRowToImage(y: int)
      requires 0 <= y < image.Length0 && width <= image.Length1 && width <= row.Length
      modifies image
      ensures forall y', x :: 0 <= y' < image.Length0 && 0 <= x < image.Length1 ==>
        image[y', x] == if y' == y && x < width then row[x] else old(image[y', x])
    {
      forall x | 0 <= x < width {
        image[y, x] := row[x];
      }
    }

    /** Copy the row buffer into the `cellSize` raster rows from `top` down. */
    method PaintBand(top: int)
      requires image.Length0 == MAX_SIZE && image.Length1 == MAX_SIZE && row.Length == MAX_SIZE
      requires 0 <= top && cellSize > 0 && top + cellSize <= MAX_SIZE && width <= MAX_SIZE
      modifies image
      ensures forall y, x :: 0 <= y < MAX_SIZE && 0 <= x < MAX_SIZE ==>
        image[y, x] == if top <= y < top + cellSize && x < width then row[x] else old(image[y, x])
    {
      for y := 0 to cellSize
        invariant forall y', x :: 0 <= y' < MAX_SIZE && 0 <= x < MAX_SIZE ==>
          image[y', x] == if top <= y' < top + y && x < width then row[x] else old(image[y', x])
      {
        CopyRowToImage(top + y);
      }
    }

    /** The row-buffer fill of `regenerateImage` as written, for grid row r whose
        band starts at raster row `top`: entry x gets the colour of cell
        `r * cols + x / cellSize`, which throws once that index passes the end
        of the palette. */
    method FillRowAsWritten(r: int, top: int) returns (ok: bool)
      requires row.Length == MAX_SIZE && 0 <= r && cellSize > 0 && cols >= 1 && width <= MAX_SIZE
      requires width == cellSize * cols && top == r * cellSize
      modifies row
      ensures ok <==> (r + 1) * cols <= |colors|
      ensures ok ==> forall k :: 0 <= k < width ==> row[k] == GridPixel(colors, cols, cellSize, k, top)
    {
      for x := 0 to width
        invariant 0 < x ==> r * cols + (x - 1) / cellSize < |colors|
        invariant forall k :: 0 <= k < x ==> row[k] == GridPixel(colors, cols, cellSize, k, top)
      {
        CellAtRange(x, 0, cellSize, cols, 1);
        var i := r * cols + x / cellSize;
        if i >= |colors| {
          return false;
        }
        CellAtBand(r, 0, x, cellSize, cols);
        row[x] := Argb(colors[i]);
      }
      LastColumn(cols, cellSize);
      return true;
    }

    /** The corrected row-buffer fill: a blank cell gets a transparent pixel. */
    method FillRow(r: int, top: int)
      requires row.Length == MAX_SIZE && 0 <= r && cellSize > 0 && cols >= 1 && 0 <= width <= MAX_SIZE
      requires top == r * cellSize
      modifies row
      ensures forall k :: 0 <= k < width ==> row[k] == GridPixel(colors, cols, cellSize, k, top)
    {
      MulMono(0, r, cols);
      for x := 0 to width
        invariant forall k :: 0 <= k < x ==> row[k] == GridPixel(colors, cols, cellSize, k, top)
      {
        var i := r * cols + x / cellSize;
        CellAtBand(r, 0, x, cellSize, cols);
        row[x] := if i < |colors| then Argb(colors[i]) else TRANSPARENT;
      }
    }

    /** One pass of the outer loop of `regenerateImage` as written: fill the row
        buffer for grid row r and copy it into the row's band of the raster, or
        throw while filling when the row runs past the palette. */
    method PaintRowAsWritten(r: int, top: int) returns (ok: bool)
      requires Inv() && 0 <= r < rows && cellSize > 0 && top == r * cellSize
      modifies image, row
      ensures ok <==> (r + 1) * cols <= |colors|
      ensures forall y, x :: 0 <= y < MAX_SIZE && 0 <= x < MAX_SIZE ==>
        image[y, x] ==
          if ok && top <= y < top + cellSize && x < width
          then GridPixel(colors, cols, cellSize, x, y) else old(image[y, x])
    {
      ok := FillRowAsWritten(r, top);
      if ok {
        BandInside(r, cellSize, rows);
        PaintBand(top);
        GridPixelInBand(colors, cols, cellSize, r, top);
      }
    }

    /** One pass of the outer loop of the corrected `regenerateImage`. */
    method PaintRow(r: int, top: int)
      requires Inv() && 0 <= r < rows && cellSize > 0 && top == r * cellSize
      modifies image, row
      ensures forall y, x :: 0 <= y < MAX_SIZE && 0 <= x < MAX_SIZE ==>
        image[y, x] ==
          if top <= y < top + cellSize && x < width
          then GridPixel(colors, cols, cellSize, x, y) else old(image[y, x])
    {
      MulMono(0, cellSize, cols);
      FillRow(r, top);
      BandInside(r, cellSize, rows);
      PaintBand(top);
      GridPixelInBand(colors, cols, cellSize, r, top);
    }

    /** `regenerateImage` as written: size the grid, then fill each grid row into
        the row buffer and copy it into the raster. A blank cell in the last row
        indexes past the palette and throws ArrayIndexOutOfBoundsException after
        the rows above it are painted. */
    method RegenerateImageAsWritten() returns (st: Status)
      requires Inv()
      modifies this`width, this`height, this`cellSize, image, row
      ensures Inv()
      ensures cellSize == FitCellSize(viewWidth, viewHeight, cols, rows)
      ensures st == (if 0 < cellSize && rows * cols > |colors| then IndexOutOfBounds else Ok)
      ensures forall y, x :: 0 <= y < MAX_SIZE && 0 <= x < MAX_SIZE ==>
        image[y, x] ==
          if 0 < cellSize && x < width && y < (if st == Ok then rows else rows - 1) * cellSize
          then GridPixel(colors, cols, cellSize, x, y) else old(image[y, x])
      ensures 0 < cellSize ==> (if st == Ok then rows else rows - 1) * cols <= |colors|
    {
      SizeToFit();
      st := PaintRowsAsWritten();
    }

    /** The outer loop of `regenerateImage` as written. */
    method PaintRowsAsWritten() returns (st: Status)
      requires Inv()
      modifies image, row
      ensures st == (if 0 < cellSize && rows * cols > |colors| then IndexOutOfBounds else Ok)
      ensures forall y, x :: 0 <= y < MAX_SIZE && 0 <= x < MAX_SIZE ==>
        image[y, x] ==
          if 0 < cellSize && x < width && y < (if st == Ok then rows else rows - 1) * cellSize
          then GridPixel(colors, cols, cellSize, x, y) else old(image[y, x])
      ensures 0 < cellSize ==> (if st == Ok then rows else rows - 1) * cols <= |colors|
    {
      var r := 0;
      var top := 0;
      while r < rows
        invariant 0 <= r <= rows && top == r * cellSize
        invariant 0 < cellSize ==> r * cols <= |colors|
        invariant forall y, x :: 0 <= y < MAX_SIZE && 0 <= x < MAX_SIZE ==>
          image[y, x] ==
            if 0 < cellSize && x < width && y < top
            then GridPixel(colors, cols, cellSize, x, y) else old(image[y, x])
      {
        // Without a positive cell size both inner loops of the source are empty.
        if 0 < cellSize {
          var ok := PaintRowAsWritten(r, top);
          if !ok {
            MulCancel(rows - 1, r + 1, cols);
            assert r == rows - 1;
            return IndexOutOfBounds;
          }
        }
        MulSucc(r, cellSize);
        r, top := r + 1, top + cellSize;
      }
      return Ok;
    }

    /** `regenerateImage` corrected: blank cells are painted transparent instead
        of reading past the palette. */
    method RegenerateImage()
      requires Inv()
      modifies this`width, this`height, this`cellSize, image, row
      ensures Inv()
      ensures cellSize == FitCellSize(viewWidth, viewHeight, cols, rows)
      ensures forall y, x :: 0 <= y < MAX_SIZE && 0 <= x < MAX_SIZE ==>
        image[y, x] ==
          if 0 < cellSize && x < width && y < height
          then GridPixel(colors, cols, cellSize, x, y) else old(image[y, x])
    {
      SizeToFit();
      PaintRows();
    }

    /** The outer loop of the corrected `regenerateImage`. */
    method PaintRows()
      requires Inv()
      modifies image, row
      ensures forall y, x :: 0 <= y < MAX_SIZE && 0 <= x < MAX_SIZE ==>
        image[y, x] ==
          if 0 < cellSize && x < width && y < height
          then GridPixel(colors, cols, cellSize, x, y) else old(image[y, x])
    {
      var r := 0;
      var top := 0;
      while r < rows
        invariant 0 <= r <= rows && top == r * cellSize
        invariant forall y, x :: 0 <= y < MAX_SIZE && 0 <= x < MAX_SIZE ==>
          image[y, x] ==
            if 0 < cellSize && x < width && y < top
            then GridPixel(colors, cols, cellSize, x, y) else old(image[y, x])
      {
        // Without a positive cell size both inner loops of the source are empty.
        if 0 < cellSize {
          PaintRow(r, top);
        }
        MulSucc(r, cellSize);
        r, top := r + 1, top + cellSize;
      }
      assert top == height;
    }

    /** `componentResized`: take the new component size and regenerate the raster. */
    method Resize(w: int, h: int)
      requires Valid()
      modifies this`viewWidth, this`viewHeight, this`width, this`height, this`cellSize, image, row
      ensures Valid() && viewWidth == w && viewHeight == h
      ensures cellSize == FitCellSize(w, h, cols, rows)
      ensures forall y, x :: 0 <= y < MAX_SIZE && 0 <= x < MAX_SIZE ==>
        image[y, x] ==
          if 0 < cellSize && x < width && y < height
          then GridPixel(colors, cols, cellSize, x, y) else old(image[y, x])
    {
      viewWidth, viewHeight := w, h;
      RegenerateImage();
    }

    /** `componentResized` as written: the as-written regeneration's
        ArrayIndexOutOfBoundsException propagates out of the handler, so a grid
        with blank cells keeps its last row unpainted on every resize. */
    method ResizeAsWritten(w: int, h: int) returns (st: Status)
      requires Valid()
      modifies this`viewWidth, this`viewHeight, this`width, this`height, this`cellSize, image, row
      ensures Valid() && viewWidth == w && viewHeight == h
      ensures cellSize == FitCellSize(w, h, cols, rows)
      ensures st == (if 0 < cellSize && rows * cols > |colors| then IndexOutOfBounds else Ok)
      ensures forall y, x :: 0 <= y < MAX_SIZE && 0 <= x < MAX_SIZE ==>
        image[y, x] ==
          if 0 < cellSize && x < width && y < (if st == Ok then rows else rows - 1) * cellSize
          then GridPixel(colors, cols, cellSize, x, y) else old(image[y, x])
    {
      viewWidth, viewHeight := w, h;
      st := RegenerateImageAsWritten();
    }
  }

  /** The last pixel of a grid row lies in the last column. */
  lemma LastColumn(cols: int, cellSize: int)
    requires cols >= 1 && cellSize > 0
    ensures (cellSize * cols - 1) / cellSize == cols - 1
  {
    Distribute(cols, cellSize);
    DivUnique(cellSize * cols - 1, cellSize, cols - 1, cellSize - 1);
  }

  /** The band of grid row r lies inside the grid's height. */
  lemma BandInside(r: int, cellSize: int, rows: int)
    requires 0 <= r < rows && cellSize > 0
    ensures 0 <= r * cellSize && r * cellSize + cellSize <= rows * cellSize
  {
    MulMono(0, r, cellSize);
    MulMono(r + 1, rows, cellSize);
  }

  /** Every raster row of grid row r shows the same pixels as its first one. */
  lemma GridPixelInBand(colors: seq<int>, cols: int, cellSize: int, r: int, top: int)
    requires cellSize > 0 && r >= 0 && top == r * cellSize
    ensures forall y, x :: top <= y < top + cellSize && 0 <= x ==>
      GridPixel(colors, cols, cellSize, x, y) == GridPixel(colors, cols, cellSize, x, top)
  {
    forall y, x | top <= y < top + cellSize && 0 <= x
      ensures GridPixel(colors, cols, cellSize, x, y) == GridPixel(colors, cols, cellSize, x, top)
    {
      CellAtBand(r, y - top, x, cellSize, cols);
      CellAtBand(r, 0, x, cellSize, cols);
    }
  }

  /** The rows the as-written regeneration paints before it throws show palette
      colours only: every pixel there lies in a cell below the palette's end. */
  lemma PaintedCellsInPalette(n: int, cols: int, cellSize: int, paintedRows: int)
    requires cols >= 1 && cellSize > 0 && paintedRows >= 0 && paintedRows * cols <= n
    ensures forall y, x :: 0 <= x < cols * cellSize && 0 <= y < paintedRows * cellSize ==>
      CellAt(x, y, cellSize, cols) < n
  {
    forall y, x | 0 <= x < cols * cellSize && 0 <= y < paintedRows * cellSize
      ensures CellAt(x, y, cellSize, cols) < n
    {
      CellAtRange(x, y, cellSize, cols, paintedRows);
    }
  }

  /** Seven colours in a 100 x 100 component: the grid is 4 x 2 with one blank
      cell and the cell size is 22, so the as-written regeneration throws; the
      last pixel of the second grid row lies in cell 7, one past the palette,
      which the corrected regeneration paints transparent. */
  lemma SevenColoursOverrun(colors: seq<int>)
    requires |colors| == 7
    ensures FirstMinimiser(7, 4) && CeilDiv(7, 4) == 2
    ensures FitCellSize(100, 100, 4, 2) == 22
    ensures CeilDiv(7, 4) * 4 > |colors|
    ensures CellAt(4 * 22 - 1, 22, 22, 4) == |colors|
    ensures GridPixel(colors, 4, 22, 4 * 22 - 1, 22) == TRANSPARENT
  {
    GridOfSeven();
    JavaDivPositive(88, 4);
    JavaDivPositive(88, 2);
  }

  // ----- the picker --------------------------------------------------------------

  class Picker {
    /** The colour model's ARGB entries. */
    const modelRGB: seq<int>
    /** One opaque colour per entry. */
    const colors: seq<int>
    const colorPanel: Panel
    /** The bounds of the spinner model `SpinnerNumberModel(0, 0, n, 1)`. */
    const spinnerMin: int
    const spinnerMax: int
    var colorIndex: int
    var adjustingColorPanel: int
    var adjustingValueSpinner: int
    var spinnerValue: int
    /** The preview swatch's foreground; unset until the first selection. */
    var preview: Option<int>
    /** The SELECTED_COLOR_PROPERTY events fired so far. */
    var changes: seq<ColorChange>
    /** The number of accepted `setColorIndex` calls. */
    ghost var selections: nat

    ghost function View(): PickerView
      reads this
    {
      PickerView(colorIndex, spinnerValue, preview, changes, adjustingColorPanel, adjustingValueSpinner, selections)
    }

    /** The picker, its panel and its spinner agree with each other. */
    ghost predicate Wired()
      reads this, colorPanel
    {
      && colorPanel.colorPicker == this
      && colorPanel.Inv()
      && colorPanel.colors == colors
      && |modelRGB| == |colors|
      && (forall i :: 0 <= i < |colors| ==> colors[i] == Low24(modelRGB[i]))
      && 0 <= colorIndex < |colors|
      && adjustingColorPanel >= 0 && adjustingValueSpinner >= 0
      && spinnerMin == 0 && spinnerMax == |colors|
      && spinnerMin <= spinnerValue <= spinnerMax
    }

    /** The three views of the selection show the same index. */
    ghost predicate Synced()
      reads this, colorPanel
    {
      colorPanel.colorIndex == colorIndex && spinnerValue == colorIndex
    }

    /** No update is in progress. */
    ghost predicate AtRest()
      reads this
    {
      adjustingColorPanel == 0 && adjustingValueSpinner == 0
    }

    /** The effect of an accepted `setColorIndex(idx)`. */
    twostate predicate Selects(idx: int)
      reads this, colorPanel
    {
      && 0 <= idx < |colors| && 0 <= old(colorIndex) < |colors|
      && View() == Selected(old(View()), colors, idx)
      && colorPanel.colorIndex == idx
      && colorPanel.delivered ==
           old(colorPanel.delivered) + (if old(colorPanel.colorIndex) != idx then Notices(colorPanel.listeners) else [])
    }

    twostate predicate Unchanged()
      reads this, colorPanel
    {
      View() == old(View()) && colorPanel.colorIndex == old(colorPanel.colorIndex) && colorPanel.delivered == old(colorPanel.delivered)
    }

    /** The constructor after its size check: copy the colours, build the panel,
        set up the spinner and register the picker's handler with the panel. */
    constructor (modelRGB: seq<int>)
      requires MIN_COLORS <= |modelRGB| <= MAX_COLORS
      ensures Wired() && Synced() && AtRest() && fresh(colorPanel)
      ensures this.modelRGB == modelRGB && colorIndex == 0 && preview == None && changes == []
      ensures colorPanel.listeners == [PickerListener] && colorPanel.delivered == []
      ensures FirstMinimiser(|modelRGB|, colorPanel.cols) && colorPanel.rows == CeilDiv(|modelRGB|, colorPanel.cols)
      ensures colorPanel.cellSize == 0
      ensures forall y, x :: 0 <= y < MAX_SIZE && 0 <= x < MAX_SIZE ==> colorPanel.image[y, x] == TRANSPARENT
    {
      this.modelRGB := modelRGB;
      var cs := CopyColors(modelRGB);
      colors := cs;
      colorPanel := new Panel(cs);
      spinnerMin, spinnerMax := 0, |modelRGB|;
      colorIndex := 0;
      spinnerValue := 0;
      adjustingColorPanel, adjustingValueSpinner := 0, 0;
      preview := None;
      changes := [];
      selections := 0;
      new;
      colorPanel.colorPicker := this;
      colorPanel.AddChangeListener(PickerListener);
    }

    /** The constructor's size check: a colour model with fewer than 2 or more
        than 256 entries is refused with IllegalArgumentException. */
    static method Create(modelRGB: seq<int>) returns (p: Option<Picker>)
      ensures p.None? <==> |modelRGB| < MIN_COLORS || |modelRGB| > MAX_COLORS
      ensures p.Some? ==> fresh(p.value) && p.value.Wired() && p.value.Synced() && p.value.AtRest()
      ensures p.Some? ==> p.value.modelRGB == modelRGB && p.value.colorIndex == 0
      ensures p.Some? ==> forall i :: 0 <= i < |modelRGB| ==> p.value.colors[i] == Low24(modelRGB[i])
      ensures p.Some? ==> p.value.colorPanel.listeners == [PickerListener] && p.value.preview == None && p.value.changes == []
      ensures p.Some? ==>
        && FirstMinimiser(|modelRGB|, p.value.colorPanel.cols)
        && p.value.colorPanel.rows == CeilDiv(|modelRGB|, p.value.colorPanel.cols)
        && p.value.colorPanel.cellSize == 0
      ensures p.Some? ==>
        forall y, x :: 0 <= y < MAX_SIZE && 0 <= x < MAX_SIZE ==> p.value.colorPanel.image[y, x] == TRANSPARENT
    {
      var n := |modelRGB|;
      if n < MIN_COLORS || n > MAX_COLORS {
        return None;
      }
      var picker := new Picker(modelRGB);
      return Some(picker);
    }

    /** `getColorIndex`. */
    function GetColorIndex(): (i: int)
      reads this, colorPanel
      requires Wired()
      ensures 0 <= i < |modelRGB|
    {
      colorIndex
    }

    /** `getColor`: the selected palette entry as an opaque colour. */
    function GetColor(): (c: int)
      reads this, colorPanel
      requires Wired()
      ensures c == Low24(modelRGB[colorIndex])
    {
      colors[colorIndex]
    }

    /** `getRGB`: the components of the selected colour. */
    function GetRGB(): (rgb: (int, int, int))
      reads this, colorPanel
      requires Wired()
      ensures IsComponent(rgb.0) && IsComponent(rgb.1) && IsComponent(rgb.2)
      ensures Pack(rgb.0, rgb.1, rgb.2) == Low24(modelRGB[colorIndex])
    {
      var c := colors[colorIndex];
      PackUnpack(c);
      (Red(c), Green(c), Blue(c))
    }

    /** `findColor`: the first entry whose low 24 bits are the colour, or 0. */
    method FindColor(r: int, g: int, b: int) returns (idx: int)
      requires IsComponent(r) && IsComponent(g) && IsComponent(b)
      ensures InPalette(modelRGB, Pack(r, g, b)) ==>
        && 0 <= idx < |modelRGB| && MatchesAt(modelRGB, idx, Pack(r, g, b))
        && forall j :: 0 <= j < idx ==> !MatchesAt(modelRGB, j, Pack(r, g, b))
      ensures !InPalette(modelRGB, Pack(r, g, b)) ==> idx == 0
    {
      var rgb := Pack(r, g, b);
      for i := 0 to |modelRGB|
        invariant forall j :: 0 <= j < i ==> !MatchesAt(modelRGB, j, rgb)
      {
        if Low24(modelRGB[i]) == rgb {
          assert MatchesAt(modelRGB, i, rgb);
          return i;
        }
      }
      return 0;
    }

    /** `setRGB`: check the components in the order red, green, blue, then
        select the first matching entry, or entry 0 when none matches. */
    method SetRGB(r: int, g: int, b: int) returns (st: Status)
      requires Wired()
      modifies this, colorPanel`colorIndex, colorPanel`delivered
      ensures Wired()
      ensures FirstBadComponent(r, g, b).Some? ==> st == IllegalArgument && Unchanged()
      ensures FirstBadComponent(r, g, b).None? ==> st == Ok && Selects(colorIndex)
      ensures FirstBadComponent(r, g, b).None? && InPalette(modelRGB, Pack(r, g, b)) ==>
        GetColor() == Pack(r, g, b) && GetRGB() == (r, g, b)
      ensures FirstBadComponent(r, g, b).None? && InPalette(modelRGB, Pack(r, g, b)) ==>
        && MatchesAt(modelRGB, colorIndex, Pack(r, g, b))
        && forall j :: 0 <= j < colorIndex ==> !MatchesAt(modelRGB, j, Pack(r, g, b))
      ensures FirstBadComponent(r, g, b).None? && !InPalette(modelRGB, Pack(r, g, b)) ==> colorIndex == 0
    {
      if FirstBadComponent(r, g, b).Some? {
        return IllegalArgument;
      }
      var idx := FindColor(r, g, b);
      st := SetColorIndex(idx);
      UnpackPack(r, g, b);
      PackUnpack(Pack(r, g, b));
    }

    /** `setColorIndex`: refuse an index outside [0, n); otherwise store it, push
        it into the preview, the panel and the spinner while the panel counter is
        raised, and fire a property change if the index moved. */
    method SetColorIndex(idx: int) returns (st: Status)
      requires Wired()
      modifies this, colorPanel`colorIndex, colorPanel`delivered
      decreases 10
      ensures Wired()
      ensures st == (if 0 <= idx < |colors| then Ok else IllegalArgument)
      ensures st == Ok ==> Selects(idx)
      ensures st != Ok ==> Unchanged()
    {
      if idx < 0 || idx >= |modelRGB| {
        return IllegalArgument;
      }
      var lastIndex := colorIndex;
      adjustingColorPanel := adjustingColorPanel + 1;
      colorIndex := idx;
      preview := Some(colors[colorIndex]);
      var _ := colorPanel.SetColorIndex(colorIndex);
      UpdateValueSpinner();
      adjustingColorPanel := adjustingColorPanel - 1;
      selections := selections + 1;
      if lastIndex != colorIndex {
        FirePropertyChange(colors[lastIndex], colors[colorIndex]);
      }
      return Ok;
    }

    /** `firePropertyChange`: Swing sends nothing when old and new value are equal. */
    method FirePropertyChange(oldColor: int, newColor: int)
      modifies this`changes
      ensures changes == old(changes) + if oldColor != newColor then [ColorChange(oldColor, newColor)] else []
    {
      if oldColor != newColor {
        changes := changes + [ColorChange(oldColor, newColor)];
      }
    }

    /** `updateValueSpinner`: push the index into the spinner while the spinner
        counter is raised. */
    method UpdateValueSpinner()
      requires Wired()
      modifies this, colorPanel`colorIndex, colorPanel`delivered
      decreases 9
      ensures Wired()
      ensures View() == old(View()).(spinnerValue := colorIndex)
      ensures colorPanel.colorIndex == old(colorPanel.colorIndex) && colorPanel.delivered == old(colorPanel.delivered)
    {
      adjustingValueSpinner := adjustingValueSpinner + 1;
      var _ := SpinnerSetValue(colorIndex);
      adjustingValueSpinner := adjustingValueSpinner - 1;
    }

    /** `valueSpinner.setValue(v)`: a new value is stored and announced to the
        spinner's listener, the picker's handler; the same value does nothing. */
    method SpinnerSetValue(v: int) returns (st: Status)
      requires Wired() && spinnerMin <= v <= spinnerMax
      modifies this, colorPanel`colorIndex, colorPanel`delivered
      decreases if adjustingValueSpinner == 0 then 12 else 8
      ensures Wired()
      ensures v == old(spinnerValue) ==> st == Ok && Unchanged()
      ensures v != old(spinnerValue) && old(adjustingValueSpinner) > 0 ==>
        st == Ok && View() == old(View()).(spinnerValue := v)
        && colorPanel.colorIndex == old(colorPanel.colorIndex) && colorPanel.delivered == old(colorPanel.delivered)
      ensures v != old(spinnerValue) && old(adjustingValueSpinner) == 0 ==>
        && st == (if v < |colors| then Ok else IllegalArgument)
        && (v < |colors| ==> Selects(v))
        && (v == |colors| ==>
              View() == old(View()).(spinnerValue := v)
              && colorPanel.colorIndex == old(colorPanel.colorIndex) && colorPanel.delivered == old(colorPanel.delivered))
    {
      if v == spinnerValue {
        return Ok;
      }
      spinnerValue := v;
      st := ChangeListener(FromSpinner);
    }

    /** The picker's `changeListener`: an event from a control whose counter is
        raised is an echo and is dropped; otherwise the control's value is selected. */
    method ChangeListener(src: Source) returns (st: Status)
      requires Wired()
      modifies this, colorPanel`colorIndex, colorPanel`delivered
      decreases match src
        case FromPanel => if adjustingColorPanel == 0 then 11 else 0
        case FromSpinner => if adjustingValueSpinner == 0 then 11 else 0
      ensures Wired()
      ensures src == FromPanel && old(adjustingColorPanel) > 0 ==> st == Ok && Unchanged()
      ensures src == FromPanel && old(adjustingColorPanel) == 0 ==> st == Ok && Selects(old(colorPanel.colorIndex))
      ensures src == FromSpinner && old(adjustingValueSpinner) > 0 ==> st == Ok && Unchanged()
      ensures src == FromSpinner && old(adjustingValueSpinner) == 0 ==>
        && st == (if old(spinnerValue) < |colors| then Ok else IllegalArgument)
        && (old(spinnerValue) < |colors| ==> Selects(old(spinnerValue)))
        && (old(spinnerValue) == |colors| ==> Unchanged())
    {
      match src
      case FromPanel =>
        if adjustingColorPanel > 0 {
          return Ok;
        }
        var idx := colorPanel.colorIndex;
        st := SetColorIndex(idx);
      case FromSpinner =>
        if adjustingValueSpinner > 0 {
          return Ok;
        }
        var idx := spinnerValue;
        st := SetColorIndex(idx);
    }

    /** The user commits a value in the spinner. The spinner keeps values within
        its bounds [0, n]; n reaches `setColorIndex`, which refuses it, and the
        spinner is left showing n. */
    method SpinnerEdited(v: int) returns (st: Status)
      requires Wired()
      modifies this, colorPanel`colorIndex, colorPanel`delivered
      ensures Wired()
      ensures (v < spinnerMin || v > spinnerMax || v == old(spinnerValue)) ==> st == Ok && Unchanged()
      ensures old(AtRest()) && spinnerMin <= v < spinnerMax && v != old(spinnerValue) ==> st == Ok && Selects(v)
      ensures old(AtRest()) && v == spinnerMax && v != old(spinnerValue) ==>
        && st == IllegalArgument && spinnerValue == spinnerMax && colorIndex == old(colorIndex)
        && colorPanel.colorIndex == old(colorPanel.colorIndex) && changes == old(changes)
      ensures old(AtRest()) && v == spinnerMax && v != old(spinnerValue) ==>
        View() == old(View()).(spinnerValue := v) && colorPanel.delivered == old(colorPanel.delivered)
      ensures old(AtRest()) && spinnerMin <= v < spinnerMax && (v != old(spinnerValue) || old(Synced())) ==>
        AtRest() && Synced() && colorIndex == v
    {
      if v < spinnerMin || v > spinnerMax {
        return Ok;
      }
      st := SpinnerSetValue(v);
    }
  }
}
